=== FILE: README.md ===
# mikasa_ed event-driven backtester, modelled in Dafny

mikasa_ed is an event-driven trading backtester written in Python. A CSV data
handler releases one bar per symbol per tick and queues a MARKET event. A
strategy turns market events into SIGNAL events, and a portfolio turns
signals into ORDER events. A simulated execution handler fills market orders
through the queue, and it parks stop orders until a later close crosses
their price. The backtest driver dispatches queued events in FIFO order, and
it drains the queue before it pulls the next bar.

This project models that core in Dafny 4.11 as pure functions over immutable
records, and proves what each piece promises:

- `events.dfy`, `legacy_events.dfy`: the packaged event records
  (`mikasa/event.py`) and the standalone ones (`event.py`). Each has its own
  rule for a missing commission.
- `stop_scan.dfy`: the `for order in stop_orders: ... remove(order)` loop
  that both execution handlers run. It is stated twice. `Scan` is Python's
  index-based iteration with removal. `Walk` is a structural reference.
  `ScanIsWalk` proves the two equal.
- `execution.dfy`, `legacy_execution.dfy`: the packaged and the standalone
  simulated execution handlers.
- `bar_feed.dfy`: the in-memory part of the packaged CSV data handler
  (`mikasa/data.py`). It covers histories, `continue_backtest`,
  `update_bars`, `get_latest_bars` and `get_latest_bars_values`.
- `reindex.dfy`: the combined-index rule and the forward-fill reindexing.
  The CSV handlers apply them before a backtest starts.
- `legacy_data.dfy`: the standalone data handler (`data.py`), with its
  `index` counter and single-bar queries.
- `buy_and_hold.dfy`: `BuyAndHoldStrategy` (`mikasa/strategy.py`).
- `naive_stop.dfy`: the example portfolio's `generate_naive_order`. It is
  identical in the two example scripts that define it.
- `intraday.dfy`: the pairs strategy's `calculate_xy_signals` state machine
  and its both-or-nothing enqueue rule (`examples/intraday_mr.py`).
- `backtest.dfy`: `Backtest._process_event` and `_run_backtest`
  (`mikasa/backtest.py`). The strategy and the portfolio are abstract. Each
  is a record of functions that return the new state and what they queued.

Python exceptions are modelled as `Failure(fault)` of a `Result`. The faults
are `IndexError`, `KeyError`, `TypeError`, `AttributeError` and
`ValueError`. Prices are `real`.

## Python behaviour the model reproduces

- **Removal during iteration** (`mikasa/execution.py:25-37`,
  `execution.py:23-30`). Python's list iterator moves forward one position
  after every element, and `remove` shifts the rest of the list down. So the
  stop right after a triggered one is not examined on that market event.
  `StopScan.Scan` iterates exactly that way. `Execution.SecondTriggeredStopWaits`
  shows two BUY stops that both qualify, of which only the first is filled.
- **Zero-length slice** (`mikasa/data.py:105`, `data.py:124`).
  `bars_list[-N:]` returns the whole history for `N = 0`. For a negative `N`
  it drops the first `-N` bars. `BarFeed.LatestBars` states all three cases.
- **Discarded union** (`mikasa/data.py:71-74`, `data.py:78-81`). The result of
  `comb_index.union(...)` is thrown away. So the combined index is the first
  symbol's index, and every symbol is padded onto it. A symbol with no row
  that early gets an all-NaN row, which the model writes as `None`.
- **Padding onto the frame's own index** (`mikasa/data.py:81`, `data.py:88`).
  `reindex` hands back the rows as they are when the target index equals
  the frame's own, without looking at their order. Only a symbol whose
  timestamps differ from the combined index and are not increasing raises
  `ValueError`; the first symbol never does.

- **Unknown symbol** (`mikasa/data.py:99-105`, `data.py:101-107`).
  `get_latest_bars` and `get_latest_bar` print a message and return `None`.
  The caller fails later: iterating `None` raises `TypeError`,
  `getattr(None, ...)` raises `AttributeError`, and indexing `None` raises
  `TypeError`.
- **Commission** (`mikasa/event.py:42-61`, `event.py:37-62`). The packaged
  `FillEvent` charges a flat `0.002` whatever the quantity. The standalone
  one charges `0.002 × quantity`.
- **Volume** (`mikasa/data.py:93`, `data.py:17-18`, `data.py:90-99`). The
  packaged generator reads `b[1].volume`, so a row without a volume column
  makes `update_bars` raise `AttributeError`. The standalone generator
  builds its data points without a `volume` key, so asking the standalone
  handler for a bar's volume raises `KeyError`.
- **Stop fills** (`mikasa/execution.py:29-37`). The packaged handler hands a
  triggered stop's fill straight to `portfolio.update_fill`. The fill never
  enters the queue, and the driver's `fills` counter does not count it. It
  carries the stop's submission time, not the time of the market event.
- **Handler exceptions** (`mikasa/backtest.py:70-99`). Nothing in the driver
  catches an exception from the strategy, the execution handler or the
  portfolio. The first call that raises ends the whole run.
- **End of data** (`mikasa/data.py:107-116`, `mikasa/backtest.py:85-99`).
  The `update_bars` call that runs out of bars still queues a market event.
  That tick is processed in full, and the loop stops before the next one.
- **Standalone stop check** (`execution.py:21-30`). The standalone
  `check_stop_orders` cannot run while a stop is pending. Its `MarketEvent`
  has no `market_data`, its `OrderEvent` has no `price`, and the fill would
  read `symbol`, `quantity` and `direction` from the market event. Its
  trigger also ignores the direction, so a SELL stop fires when the price
  rises. The model states the as-written outcome (`AttributeError`). It
  also states the trigger and removal separately on stops paired with a
  price.

## Model

| member | source | states |
|---|---|---|
| Events.TypeTag | mikasa/event.py:9-45 | each event kind carries its own fixed tag MARKET, SIGNAL, ORDER or FILL, and no other kind carries that tag |
| Events.NewOrder | mikasa/event.py:27-35 | an order built without a price has no price, and every other argument is kept |
| Events.NewFill | mikasa/event.py:42-61 | a fill keeps its arguments, including a missing price; a missing commission becomes the flat 0.002 whatever the quantity, and a supplied commission is stored unchanged |
| LegacyEvents.Commission | event.py:54-62 | the default standalone commission is zero for quantity zero, never negative for a non-negative quantity, and 0.002 for quantity one |
| LegacyEvents.CommissionLinear | event.py:55 | the default standalone commission is additive and scales with the quantity |
| LegacyEvents.NewFill | event.py:37-52 | a standalone fill keeps its arguments; a missing commission becomes 0.002 × quantity, and a supplied one overrides the formula |
| LegacyEvents.LegacyTypeTag | event.py:9-40 | the standalone events carry the same four tags; the market event carries nothing else |
| Base.FieldOf | data.py:17-18 | reading a bar attribute fails only for the volume of a bar that has none |
| Base.SliceFrom | mikasa/data.py:105 | Python's `s[k:]` for any integer `k`: a suffix of `s` no longer than `s` |
| StopScan.ScanIsWalk | mikasa/execution.py:25-37 | iterating by position while removing triggered stops at the iterator's position gives exactly the structural walk, where a triggered stop's successor stays unexamined |
| StopScan.ScanFireStep | mikasa/execution.py:32 | after a removal the next stop slides under the iterator and is passed over |
| StopScan.WalkPartitions | mikasa/execution.py:25-37 | every stop ends up either still pending or filled: none is lost or duplicated |
| StopScan.WalkFiresOnlyFired | mikasa/execution.py:28-37 | only stops whose trigger holds are removed, and every stop whose trigger does not hold stays pending |
| StopScan.WalkFailsOnlyRaised | mikasa/execution.py:28 | the loop fails only with the exception some stop's comparison raises, and succeeds when none raises |
| StopScan.CheckAll | mikasa/execution.py:25-37 | the whole loop, with all of the guarantees above |
| Execution.MarketFill | mikasa/execution.py:42-43 | a market order's fill copies symbol, quantity and direction, has venue BACKTEST, no price, the wall-clock time and the default commission |
| Execution.ExecuteOrder | mikasa/execution.py:39-47 | MKT queues exactly one unpriced BACKTEST fill, stamped with the wall clock and charged the flat 0.002 commission, and keeps the pending list; STP appends the order with its submission time and queues nothing; other events and order types change nothing |
| Execution.StopFill | mikasa/execution.py:29-30 | a stop's fill has the order's symbol, quantity and direction, the stop price and the submission time |
| Execution.Judge | mikasa/execution.py:26-33 | a stop is compared only if its symbol has a bar; a BUY fires iff close > stop, a SELL iff close < stop, and equality never fires; a missing stop price raises TypeError |
| Execution.CheckStopOrders | mikasa/execution.py:23-37 | no effect on non-market events; on a market event every stop ends up pending or filled, only triggered stops are filled, untriggered stops stay, and it fails only with TypeError on an unpriced stop whose symbol has a bar |
| Execution.UnexaminedStopStays | mikasa/execution.py:26-27 | a stop whose symbol has no bar on this event stays pending and is not filled |
| Execution.SingleStopBoundary | mikasa/execution.py:28-37 | a single stop is filled exactly when the close is strictly beyond its price in its direction, and then at that price |
| Execution.SecondTriggeredStopWaits | mikasa/execution.py:25-32 | of two BUY stops at 1.0 with the close at 2.0, only the first is filled, although the second's trigger holds |
| LegacyExecution.ExecuteOrder | execution.py:32-39 | MKT queues one unpriced BACKTEST fill with the wall-clock time and commission 0.002 × quantity; STP appends the order and queues nothing; other events change nothing |
| LegacyExecution.CheckStopOrders | execution.py:21-24 | as written: only a market event with a non-empty pending list fails, with AttributeError; otherwise the pending list is kept |
| LegacyExecution.Judge | execution.py:25-26 | a priced stop fires iff its symbol has a bar whose close is strictly above the stop price, whatever its direction |
| LegacyExecution.TriggerAndRemove | execution.py:23-30 | the removal loop on priced stops never fails, loses no stop, removes only stops whose close is above their price, and keeps every other stop |
| LegacyExecution.SellStopFiresOnRise | execution.py:26 | a SELL stop fires when the close rises above it, where the packaged rule would not fire |
| BarFeed.Init | mikasa/data.py:43-82 | histories start empty, `continue_backtest` starts set, and each symbol's iterator holds its bars stamped with the symbol; a repeated symbol fails with AttributeError |
| BarFeed.Stamp | mikasa/data.py:83-94 | every bar the generator yields carries the symbol it was loaded for |
| BarFeed.Advance | mikasa/data.py:107-115 | an update appends at most one bar to each history, one exactly when a bar is left; no bar is lost or invented; histories never shrink; the flag is cleared as soon as some symbol has none left, and never set again |
| BarFeed.AdvanceDropsNext | mikasa/data.py:107-115 | an update takes exactly the next row off each symbol's iterator |
| BarFeed.UpdateBars | mikasa/data.py:83-116 | an update fails with AttributeError iff some symbol's next row has no volume, and otherwise with IndexError iff some history is still empty; on success the bars have advanced once and the one market event maps every symbol to the last bar of its history |
| BarFeed.LatestBars | mikasa/data.py:99-105 | None for an unknown symbol; for N ≥ 1 the last min(N, len) bars in order; the whole history for N = 0; the history without its first -N bars for N < 0 |
| BarFeed.Project | mikasa/data.py:97 | one attribute per bar, same length and order, or KeyError if some bar lacks it |
| BarFeed.LatestBarsValues | mikasa/data.py:96-105 | TypeError for an unknown symbol; for a known symbol exactly the attribute of every bar `get_latest_bars` returns, same length and order, with KeyError iff some of those bars lacks it |
| BarFeed.ContinuesThroughLastBar | mikasa/data.py:107-115 | with n bars left for every symbol, n updates move them all into the histories and keep `continue_backtest` set |
| BarFeed.StopsOnePastLastBar | mikasa/data.py:110-112 | the update after the last bar clears `continue_backtest` |
| Reindex.CombineFrom | mikasa/data.py:71-74 | the loop keeps the first index it sees; later unions change nothing |
| Reindex.CombinedIndex | mikasa/data.py:58-74 | the combined index is exactly the first symbol's index, or none without symbols |
| Reindex.LastAtOrBefore | mikasa/data.py:81 | the position of the latest row at or before a timestamp, or none iff every row is later |
| Reindex.Pad | mikasa/data.py:81 | pad reindexing: onto the frame's own timestamps the rows come back as they are, in any order; onto any other index it raises ValueError iff the rows are not strictly increasing, and otherwise gives one row per label, an empty row iff the symbol has no row that early, else the latest earlier row relabelled |
| Reindex.ForwardFill | mikasa/data.py:81 | for strictly increasing rows, the padded row at a label is the symbol's latest row at or before it, whether or not the index is the frame's own |
| Reindex.PadOntoOwnIndex | mikasa/data.py:81 | padding a symbol onto its own timestamps never raises and gives back its own rows, even when they are out of order |
| Reindex.FirstBad | mikasa/data.py:80-81 | the first position at or after `i` where the pass raises, with no such position before it, or none at all |
| Reindex.BadSomewhere | mikasa/data.py:80-81 | some position of the pass raises iff a symbol repeats or some symbol's rows are out of order and its timestamps differ from the first symbol's |
| Reindex.RepeatRaisesAttributeError | mikasa/data.py:80-81 | a symbol listed twice fails with AttributeError on its second occurrence, whatever the order of its rows, since its first occurrence is padded onto its own timestamps |
| Reindex.UnorderedBeforeRepeat | data.py:86-88 | after a first symbol `t`, a repeated symbol whose rows are unordered and whose timestamps differ from `t`'s fails on its first occurrence with ValueError, before the repeat is reached |
| Reindex.ReindexAll | mikasa/data.py:57-81 | symbols are padded one after another in list order; the pass fails iff a symbol repeats or some symbol's rows are out of order while its timestamps differ from the first symbol's, with the fault of the first position that raises (AttributeError for a repeat, ValueError for unordered rows); the first symbol never raises ValueError and keeps its rows as they are; on success every symbol's rows are exactly its padding onto the first symbol's timestamps, so every symbol has the first symbol's length and labels |
| LegacyData.Init | data.py:50-99 | the standalone handler starts with `index` 0, empty histories and `continue_backtest` set; its bars are the loaded rows stamped with their symbol and without a volume; a repeated symbol fails with AttributeError |
| LegacyData.WithoutVolume | data.py:90-99 | the yielded rows keep everything but the volume, one for one |
| LegacyData.UpdateBars | data.py:126-136 | one update advances the bars like the packaged handler, increments `index` by one, queues one payload-free market event and never yields a volume |
| LegacyData.IndexCountsUpdates | data.py:126-135 | after k updates `index` has grown by exactly k, and the bars stand exactly where k packaged updates would put them |
| LegacyData.LatestBar | data.py:101-107 | the last bar of the history; None for an unknown symbol; IndexError for an empty history |
| LegacyData.LatestBarValue | data.py:101-113 | the named attribute of the latest bar; AttributeError for an unknown symbol, IndexError for an empty history, KeyError iff the latest bar lacks the attribute |
| LegacyData.VolumeRaisesKeyError | data.py:17-18 | asking the standalone handler for the volume of a symbol's latest bar raises KeyError |
| LegacyData.LatestBarIsLatestBarsOfOne | data.py:118-124 | the latest bar is the single bar `get_latest_bars(symbol, 1)` returns |
| BuyAndHold.InitialBought | mikasa/strategy.py:27-31 | one flag per symbol, all clear |
| BuyAndHold.HasBarsIsLatestBarPresent | mikasa/strategy.py:36-37 | "has bars" means `get_latest_bars(s, N=1)` is neither None nor empty |
| BuyAndHold.SignalFor | mikasa/strategy.py:40-45 | the signal is a BUY_AND_HOLD LONG of strength 1.0 for the bar's symbol and time |
| BuyAndHold.SignalAt | mikasa/strategy.py:36-47 | a symbol gets one signal, for its latest bar, iff it has a bar and is not bought |
| BuyAndHold.Eligible | mikasa/strategy.py:35-38 | the symbols that get a signal are exactly those with a bar and a clear flag, in `symbol_list` order |
| BuyAndHold.SweepEmitsEligible | mikasa/strategy.py:35-46 | the signals follow `symbol_list` order, one per eligible symbol |
| BuyAndHold.SweepSignalsAreLatest | mikasa/strategy.py:36-45 | each signal is the LONG for the latest bar of its own symbol |
| BuyAndHold.SweepCounts | mikasa/strategy.py:35-47 | an eligible symbol gets exactly one signal and any other symbol none |
| BuyAndHold.CalculateSignals | mikasa/strategy.py:33-47 | nothing for a non-market event; on a market event one LONG per symbol with a bar and a clear flag, in `symbol_list` order; those flags are set, a symbol without bars keeps its flag, and no flag is cleared |
| BuyAndHold.AtMostOneSignalPerSymbol | mikasa/strategy.py:38-47 | over any run a symbol gets at most one signal, none if already bought, and it ends bought once signalled |
| BuyAndHold.NoSignalForUnlisted | mikasa/strategy.py:35 | a symbol outside `symbol_list` never gets a signal |
| BuyAndHold.OneSignalPerSymbolFromStart | mikasa/strategy.py:25-47 | from the initial flags every symbol gets at most one signal over a whole run |
| NaiveStop.Tilted | examples/prediction_bt_keras_5min_BTC_LTC.py:25-49 | a BUY stop is priced at close × 1.001 and a SELL stop at close × 0.999 |
| NaiveStop.NaiveOrder | examples/prediction_bt_keras_5min_BTC_LTC.py:27-51 | every order is a STP with positive quantity at the tilted price; LONG or SHORT from flat gives 1000.0 on its side; EXIT sells a long or buys back a short for the whole position; no order iff an entry while not flat or an EXIT while flat |
| NaiveStop.OrdersMoveTowardsSignal | examples/prediction_bt_keras_5min_btc_eth_real_data.py:36-49 | once filled, an EXIT order flattens the position, and an entry from flat opens ±1000.0 on the signal's side |
| NaiveStop.TiltBracketsClose | examples/prediction_bt_keras_5min_btc_eth_real_data.py:25-48 | for a positive close the BUY stop lies above it and the SELL stop below it, each 0.1% away |
| NaiveStop.GenerateNaiveOrder | examples/prediction_bt_keras_5min_BTC_LTC.py:27-34 | KeyError without a position, TypeError for an unknown symbol, IndexError for an empty history; a symbol with a position and some bar always succeeds, with the order sized from the position and the latest close |
| Intraday.XYSignals | examples/intraday_mr.py:34-65 | both legs or neither; y is always the first symbol with strength 1.0 and x the second with non-negative strength; a flag is set only beyond the high threshold and outside the low band, and a held flag is cleared only inside the low band |
| Intraday.NoBranchKeepsFlags | examples/intraday_mr.py:35-65 | when no test matches, the result is (None, None) and both flags are kept |
| Intraday.OpensLong | examples/intraday_mr.py:43-46 | at z ≤ -high while not long: long is set, y LONG 1.0 and x SHORT with the absolute hedge ratio |
| Intraday.OpensShort | examples/intraday_mr.py:55-58 | at z ≥ high while not short: short is set, y SHORT 1.0 and x LONG with the absolute hedge ratio |
| Intraday.ClosesInsideLowBand | examples/intraday_mr.py:49-64 | inside the low band every held side is cleared and both legs get EXIT |
| Intraday.LaterBranchOverwrites | examples/intraday_mr.py:43-64 | for every z-score that opens a long while lying inside the low band, the later tests close it in the same call: only the EXIT signals survive and both flags end clear |
| Intraday.Enqueued | examples/intraday_mr.py:86-88 | both signals, y first, are queued iff both legs are present; otherwise nothing |
| Intraday.EnqueuesBothOrNothing | examples/intraday_mr.py:85-88 | a call queues the pair's two signals exactly when it returns any signal |
| Backtest.NewBacktest | mikasa/backtest.py:53-56 | the signal, order and fill counters start at 0, with an empty queue and no pending stops |
| Backtest.ApplyFills | mikasa/execution.py:29-37 | the triggered stops' fills reach `update_fill` in order and the first raise ends the call; handlers that never raise get through every fill, and handlers that queue nothing queue nothing |
| Backtest.ApplyFillsSingle | mikasa/execution.py:29-31 | applying a single fill is exactly one `update_fill` call on that fill |
| Backtest.ApplyFillsAppend | mikasa/execution.py:25-37 | applying the fills of `a + b` is applying those of `a` and then those of `b` to the portfolio that leaves |
| Backtest.Dispatch | mikasa/backtest.py:70-83 | a market event goes to the strategy, then the stop check whose fills go to `update_fill` in order, then `update_timeindex`, and the first of these that raises ends the dispatch with its fault; a signal or fill takes the portfolio and queued entries of `update_signal` or `update_fill` and raises what it raises; an order never fails; each kind increments only its own counter, the queue only grows by what the handlers queued in call order, and the bars never change |
| Backtest.DispatchShift | mikasa/backtest.py:70-83 | dispatch never reads the queue: on any queue it raises the same fault or reaches the same world with the same entries appended |
| Backtest.SilentDispatch | mikasa/backtest.py:70-83 | with handlers that queue nothing only an order adds to the queue, and then at most one fill |
| Backtest.Replay | mikasa/backtest.py:92-99 | the reference for the drain: the events dispatched one after another, stopping at the first that raises; the counters grow by each kind's count and the bars stay |
| Backtest.ReplayShift | mikasa/backtest.py:92-99 | replaying a trace on a longer queue only keeps that queue in front |
| Backtest.StopFillsBypassQueue | mikasa/execution.py:23-37 | with handlers that queue nothing, a lone market event drains after itself alone: no fill is queued or counted, the triggered stops leave the pending list, and the portfolio is what `update_timeindex` makes of the portfolio after `update_fill` took every triggered stop's fill |
| Backtest.DrainQueue | mikasa/backtest.py:92-99 | the queue is drained to empty; the events are dispatched in FIFO order, exactly those queued before or during the drain, with None skipped; each counter grows by the count of its kind; the bars do not change; a crash names the event that raised |
| Backtest.CrashIsReplay | mikasa/backtest.py:92-99 | a crashed drain's trace is non-empty; replaying all of it but the last event succeeds, and the trace is a prefix of the old queue's events followed by those that replay queued, so the last event is the next one the loop popped |
| Backtest.DrainIsReplay | mikasa/backtest.py:92-99 | a drained queue reaches the world, and queues exactly the entries, that replaying its trace from an empty queue gives; a crash is a replay that raises the same fault |
| Backtest.DrainTerminates | mikasa/backtest.py:92-99 | with handlers that queue nothing, one unit of fuel per queued entry plus one per queued order always ends the drain drained or crashed |
| Backtest.DrainTerminatesWithTwicePerEntry | mikasa/backtest.py:92-99 | with handlers that queue nothing, two units of fuel per queued entry always suffice |
| Backtest.MarketOrderNeedsSecondPass | mikasa/execution.py:39-44 | one pass per entry is not enough: a lone market order queues its fill, which needs a second pass |
| Backtest.RunTick | mikasa/backtest.py:86-99 | one loop pass: a failing `update_bars` ends it with its fault; otherwise the pass goes through iff the drain of the queued market event does, a drain that raises ends the pass with the same fault, and a drain out of fuel makes the pass run out of fuel; a pass that goes through has the drain's world and trace, so the bars advance once, the queued market event is dispatched first, the queue ends empty and each counter grows by its kind's count; handlers that queue nothing never exhaust one unit of fuel |
| Backtest.TickIsReplay | mikasa/backtest.py:86-99 | a tick's world is what replaying its trace from the world with the updated bars reaches, and the events that replay queues are exactly the rest of the trace, so the tick dispatched everything its events queued |
| Backtest.QuietTick | mikasa/backtest.py:86-99 | with handlers that never raise or queue and no pending stops, a successful update gives a tick that dispatches only its market event and leaves no stop pending |
| Backtest.QuietStep | mikasa/backtest.py:86-99 | under the same handlers and n bars left for every symbol, a tick succeeds and keeps the flag set iff n > 0, leaving n - 1 bars for every symbol |
| Backtest.QuietFeedAdvances | mikasa/data.py:107-116 | with n bars left for every symbol and none without a volume, an update succeeds and keeps the flag set iff n > 0, leaving n - 1 for every symbol |
| Backtest.RunBacktest | mikasa/backtest.py:85-100 | with the flag clear nothing happens; a finished run is a chain of ticks, each a `RunTick` from the world the previous one left with the flag set, whose market events and traces are the run's and whose last world is the run's final world; it ends with the flag clear and the queue empty, has a tick iff the flag was set, dispatches each tick's market event first and counts the whole run; with handlers that never raise or queue, no pending stops, and n bars left for every symbol, each holding some bar and every bar a volume, a run given more than n ticks of fuel finishes with exactly n + 1 ticks; a crashed run is a chain of ticks that went through, followed by a tick from a world with the flag still set that raises the run's fault |
| Backtest.ConsChain | mikasa/backtest.py:85-99 | a tick from `w` followed by a chain of ticks from the world it left is a chain of ticks from `w` |
| Backtest.ConsRun | mikasa/backtest.py:85-99 | one tick followed by a finished run is a finished run from the tick's start, with the counts added up |

## Left out

- CSV loading through pandas (`mikasa/data.py:60-69`, `data.py:66-75`) is file I/O. Each symbol's loaded series is a given sequence of bars, and `DataPoint` is a fixed `Bar` record. The `timestamp` attribute of packaged bars is not modelled.
- BarFeed.Init: requires every listed symbol to have been loaded, because a missing CSV file is an I/O failure outside the model.
- BarFeed.Init: takes the rows the reindexing pass left and reports only a repeated symbol's AttributeError; when an earlier symbol's rows are out of order and differ from the first symbol's timestamps, the pass raises ValueError first, as `Reindex.ReindexAll` states.
- LegacyData.Init: takes the rows the reindexing pass left and reports only a repeated symbol's AttributeError; when an earlier symbol's rows are out of order and differ from the first symbol's timestamps, the pass raises ValueError first, as `Reindex.ReindexAll` states.
- Reindex.Pad: pads onto a different index only strictly increasing rows; pandas also pads monotonically decreasing ones, and NaN prices are not modelled.
- The Poloniex data handler (`mikasa/data.py:117-143`) and `download_bars.py` are network clients.
- Plotting, performance output and `time.sleep(heartbeat)` (`mikasa/backtest.py:100-140`) have no effect on the events.
- The ML strategies, `SMAStrategy`, `StatArbitrageStrategy` and the OLS and z-score computation (`examples/intraday_mr.py:67-85`) are left out: they use foreign libraries and floating-point numerics. The z-score and the hedge ratio are inputs to `Intraday.XYSignals`.
- `NaivePortfolio` is not part of this model. The portfolio is abstract in the driver: `update_signal`, `update_fill` and `update_timeindex` are given functions.
- Exact IEEE floating-point results are not modelled; prices and quantities are real numbers.
- Backtest.Dispatch: every call of `datetime.utcnow()` reads the same parameter `now`, because the wall clock is outside the model.
- Backtest.DrainQueue: takes fuel and reports running out of it, because nothing bounds what the given handlers queue. `Backtest.DrainTerminates` bounds the fuel only for handlers that queue nothing.
- Backtest.Dispatch: the stop check finishes its scan before its fills reach `update_fill`. When `update_fill` raises on an earlier stop and a later stop of the same scan has no price, the model reports the `TypeError` of the later stop where the code reports `update_fill`'s exception.
- Backtest.RunBacktest: takes fuel for the number of ticks, because the loop never ends when there are no symbols. It promises a finished run only for handlers that never raise or queue, with no pending stops and the same number of bars left for every symbol.
- BuyAndHold.CalculateSignals: requires the flags to cover exactly `symbol_list`, which the constructor guarantees.
- LegacyExecution.TriggerAndRemove: models only the trigger rule and the removal on stops paired with a price. The fields of the standalone stop fill come from a market event that has none, so the fill is not modelled.
- Strategy and example-script wiring (`_generate_trading_instances`, `__main__` blocks) only builds objects.

=== FILE: backtest.dfy ===
/** The backtest driver (`Backtest` in `mikasa/backtest.py`): one FIFO event
    queue, a dispatcher that routes each event to the strategy, the
    execution handler or the portfolio and counts signals, orders and fills,
    and an outer loop that pulls one bar per symbol and then drains the
    queue completely.

    The strategy and the portfolio are given as functions: each call either
    raises or returns its new state and what it put on the queue (the
    portfolio may put `None`, which the loop skips). The execution handler
    and the data handler are the packaged ones. The wall clock
    `execute_order` reads is one parameter `now`. Draining and the outer
    loop take fuel, because nothing bounds what the given handlers put on
    the queue. */
module Backtest {
  import opened Base
  import opened Events
  import opened StopScan
  import BarFeed
  import Execution

  /** A handler's new state and the queue entries it produced, in order. */
  datatype Step<T> = Step(state: T, emitted: seq<Option<Event>>)

  /** The strategy and portfolio methods the driver calls; each may read the
      data handler, and each may raise. */
  datatype Handlers<!S, !P> = Handlers(
    calculateSignals: (S, BarFeed.Feed, Event) -> Result<Step<S>>,
    updateSignal: (P, BarFeed.Feed, SignalEvent) -> Result<Step<P>>,
    updateFill: (P, BarFeed.Feed, FillEvent) -> Result<Step<P>>,
    updateTimeindex: (P, BarFeed.Feed, MarketEvent) -> Result<Step<P>>)

  /** Handlers that put nothing on the queue whenever they return. */
  ghost predicate Silent<S(!new), P(!new)>(h: Handlers<S, P>)
  {
    && (forall s, f, e :: h.calculateSignals(s, f, e).Success? ==> h.calculateSignals(s, f, e).value.emitted == [])
    && (forall p, f, x :: h.updateSignal(p, f, x).Success? ==> h.updateSignal(p, f, x).value.emitted == [])
    && (forall p, f, x :: h.updateFill(p, f, x).Success? ==> h.updateFill(p, f, x).value.emitted == [])
    && (forall p, f, x :: h.updateTimeindex(p, f, x).Success? ==> h.updateTimeindex(p, f, x).value.emitted == [])
  }

  /** Handlers that never raise. */
  ghost predicate Total<S(!new), P(!new)>(h: Handlers<S, P>)
  {
    && (forall s, f, e :: h.calculateSignals(s, f, e).Success?)
    && (forall p, f, x :: h.updateSignal(p, f, x).Success?)
    && (forall p, f, x :: h.updateFill(p, f, x).Success?)
    && (forall p, f, x :: h.updateTimeindex(p, f, x).Success?)
  }

  /** Everything the loop reads or changes. */
  datatype World<S, P> = World(
    feed: BarFeed.Feed,
    strategy: S,
    stops: seq<Execution.PendingStop>,
    portfolio: P,
    queue: seq<Option<Event>>,
    signals: nat, orders: nat, fills: nat)

  /** The constructor: counters at zero, an empty queue, no pending stops. */
  function NewBacktest<S(!new), P(!new)>(feed: BarFeed.Feed, strategy: S, portfolio: P): (w: World<S, P>)
    ensures w.signals == 0 && w.orders == 0 && w.fills == 0
    ensures w.queue == [] && w.stops == []
    ensures w.feed == feed && w.strategy == strategy && w.portfolio == portfolio
  {
    World(feed, strategy, Execution.NoStops, portfolio, [], 0, 0, 0)
  }

  /** The events of a stretch of the queue, without its `None` entries. */
  function Present(q: seq<Option<Event>>): (es: seq<Event>)
    ensures |es| <= |q|
    ensures forall e :: e in es <==> Some(e) in q
  {
    if |q| == 0 then []
    else
      assert forall x :: x in q <==> x == q[0] || x in q[1..];
      (if q[0].Some? then [q[0].value] else []) + Present(q[1..])
  }

  lemma PresentAppend(a: seq<Option<Event>>, b: seq<Option<Event>>)
    ensures Present(a + b) == Present(a) + Present(b)
  {
    if |a| == 0 {
      assert a + b == b;
    } else {
      assert (a + b)[1..] == a[1..] + b;
      PresentAppend(a[1..], b);
    }
  }

  /** Events put on the queue by the execution handler, as queue entries. */
  function Queued(es: seq<Event>): (q: seq<Option<Event>>)
    ensures |q| == |es|
    ensures forall i :: 0 <= i < |es| ==> q[i] == Some(es[i])
  {
    seq(|es|, i requires 0 <= i < |es| => Some(es[i]))
  }

  /** The number of events of one kind in a trace. */
  function CountTag(t: seq<Event>, tag: string): (n: nat)
    ensures n <= |t|
  {
    if |t| == 0 then 0
    else (if TypeTag(t[0]) == tag then 1 else 0) + CountTag(t[1..], tag)
  }

  lemma CountTagAppend(a: seq<Event>, b: seq<Event>, tag: string)
    ensures CountTag(a + b, tag) == CountTag(a, tag) + CountTag(b, tag)
  {
    if |a| == 0 {
      assert a + b == b;
    } else {
      assert (a + b)[1..] == a[1..] + b;
      CountTagAppend(a[1..], b, tag);
    }
  }

  /** `portfolio.update_fill` for each triggered stop's fill, in order; the
      first fill the portfolio raises on ends the call. Handlers that never
      raise get through every fill; handlers that queue nothing leave
      nothing queued. */
  function ApplyFills<S(!new), P(!new)>(h: Handlers<S, P>, p: P, feed: BarFeed.Feed, fills: seq<FillEvent>)
    : (r: Result<Step<P>>)
    ensures fills == [] ==> r == Success(Step(p, []))
    ensures Total(h) ==> r.Success?
    ensures Silent(h) && r.Success? ==> r.value.emitted == []
    decreases |fills|
  {
    if |fills| == 0 then Success(Step(p, []))
    else
      match h.updateFill(p, feed, fills[0])
      case Failure(e) => Failure(e)
      case Success(first) =>
        match ApplyFills(h, first.state, feed, fills[1..])
        case Failure(e) => Failure(e)
        case Success(rest) => Success(Step(rest.state, first.emitted + rest.emitted))
  }

  /** Applying the fills of `a + b` is applying those of `a` and then, from
      the portfolio that leaves, those of `b`. */
  lemma {:induction false} ApplyFillsAppend<S(!new), P(!new)>(h: Handlers<S, P>, p: P, feed: BarFeed.Feed,
                                                  a: seq<FillEvent>, b: seq<FillEvent>)
    ensures ApplyFills(h, p, feed, a + b) ==
            match ApplyFills(h, p, feed, a)
            case Failure(e) => Failure(e)
            case Success(x) =>
              match ApplyFills(h, x.state, feed, b)
              case Failure(e) => Failure(e)
              case Success(y) => Success(Step(y.state, x.emitted + y.emitted))
    decreases |a|
  {
    if |a| == 0 {
      assert a + b == b;
      match ApplyFills(h, p, feed, b)
      case Failure(_) =>
      case Success(y) => assert [] + y.emitted == y.emitted;
    } else {
      assert (a + b)[0] == a[0] && (a + b)[1..] == a[1..] + b;
      match h.updateFill(p, feed, a[0])
      case Failure(_) =>
      case Success(first) =>
        ApplyFillsAppend(h, first.state, feed, a[1..], b);
        match ApplyFills(h, first.state, feed, a[1..])
        case Failure(_) =>
        case Success(x) =>
          match ApplyFills(h, x.state, feed, b)
          case Failure(_) =>
          case Success(y) =>
            assert first.emitted + (x.emitted + y.emitted) == (first.emitted + x.emitted) + y.emitted;
    }
  }

  /** A single fill goes to `update_fill` alone: the call raises what it
      raises, or leaves its portfolio and its queued entries. With
      `ApplyFillsAppend` this fixes `ApplyFills` on every list of fills. */
  lemma ApplyFillsSingle<S(!new), P(!new)>(h: Handlers<S, P>, p: P, feed: BarFeed.Feed, x: FillEvent)
    ensures ApplyFills(h, p, feed, [x]) == h.updateFill(p, feed, x)
  {
    assert [x][0] == x && [x][1..] == [];
    match h.updateFill(p, feed, x)
    case Failure(_) =>
    case Success(first) =>
      assert ApplyFills(h, first.state, feed, []) == Success(Step(first.state, []));
      assert first.emitted + [] == first.emitted;
  }

  /** `_process_event`. A market event goes, in this order, to the strategy,
      to the stop check, whose fills go straight to the portfolio's
      `update_fill` without being counted, and to the portfolio's time
      index; the first of these that raises ends the dispatch. A signal, an
      order or a fill increments only its own counter and goes to exactly
      one handler. Everything a handler queues is appended to the queue, in
      call order, and the bars never change. */
  function Dispatch<S(!new), P(!new)>(h: Handlers<S, P>, w: World<S, P>, e: Event, now: Timestamp): (r: Result<World<S, P>>)
    ensures r.Success? ==> r.value.feed == w.feed && w.queue <= r.value.queue
    ensures r.Success? ==>
              && r.value.signals == w.signals + (if e.Signal? then 1 else 0)
              && r.value.orders == w.orders + (if e.Order? then 1 else 0)
              && r.value.fills == w.fills + (if e.Fill? then 1 else 0)
    ensures e.Market? ==>
              var st := h.calculateSignals(w.strategy, w.feed, e);
              var c := Execution.CheckStopOrders(w.stops, e);
              && (st.Failure? ==> r == Failure(st.fault))
              && (st.Success? && c.Failure? ==> r == Failure(c.fault))
              && (st.Success? && c.Success? ==>
                    var fl := ApplyFills(h, w.portfolio, w.feed, Execution.StopFills(c.value.fired));
                    && (fl.Failure? ==> r == Failure(fl.fault))
                    && (fl.Success? ==>
                          var ti := h.updateTimeindex(fl.value.state, w.feed, e.market);
                          && (ti.Failure? ==> r == Failure(ti.fault))
                          && (ti.Success? ==>
                                && r.Success?
                                && r.value.strategy == st.value.state
                                && r.value.stops == c.value.pending
                                && r.value.portfolio == ti.value.state
                                && r.value.queue == w.queue + st.value.emitted + fl.value.emitted + ti.value.emitted)))
    ensures e.Signal? ==>
              var up := h.updateSignal(w.portfolio, w.feed, e.signal);
              && (up.Failure? ==> r == Failure(up.fault))
              && (up.Success? ==>
                    r.Success? && r.value.portfolio == up.value.state && r.value.queue == w.queue + up.value.emitted)
    ensures e.Fill? ==>
              var up := h.updateFill(w.portfolio, w.feed, e.fill);
              && (up.Failure? ==> r == Failure(up.fault))
              && (up.Success? ==>
                    r.Success? && r.value.portfolio == up.value.state && r.value.queue == w.queue + up.value.emitted)
    ensures e.Order? ==>
              var ex := Execution.ExecuteOrder(w.stops, e, now);
              && r.Success? && r.value.stops == ex.pending && r.value.portfolio == w.portfolio
              && r.value.queue == w.queue + Queued(ex.enqueued)
    ensures !e.Market? && r.Success? ==> r.value.strategy == w.strategy
    ensures (e.Signal? || e.Fill?) && r.Success? ==> r.value.stops == w.stops
    ensures Total(h) ==> (r.Failure? <==> e.Market? && Execution.CheckStopOrders(w.stops, e).Failure?)
  {
    match e
    case Market(m) =>
      (match h.calculateSignals(w.strategy, w.feed, e)
       case Failure(f) => Failure(f)
       case Success(st) =>
         match Execution.CheckStopOrders(w.stops, e)
         case Failure(f) => Failure(f)
         case Success(c) =>
           match ApplyFills(h, w.portfolio, w.feed, Execution.StopFills(c.fired))
           case Failure(f) => Failure(f)
           case Success(filled) =>
             match h.updateTimeindex(filled.state, w.feed, m)
             case Failure(f) => Failure(f)
             case Success(ti) =>
               var q := w.queue + st.emitted + filled.emitted + ti.emitted;
               assert q == w.queue + (st.emitted + filled.emitted + ti.emitted);
               Success(w.(strategy := st.state, stops := c.pending, portfolio := ti.state, queue := q)))
    case Signal(sig) =>
      (match h.updateSignal(w.portfolio, w.feed, sig)
       case Failure(f) => Failure(f)
       case Success(up) =>
         Success(w.(signals := w.signals + 1, portfolio := up.state, queue := w.queue + up.emitted)))
    case Order(_) =>
      var ex := Execution.ExecuteOrder(w.stops, e, now);
      Success(w.(orders := w.orders + 1, stops := ex.pending, queue := w.queue + Queued(ex.enqueued)))
    case Fill(f) =>
      match h.updateFill(w.portfolio, w.feed, f)
      case Failure(x) => Failure(x)
      case Success(up) =>
        Success(w.(fills := w.fills + 1, portfolio := up.state, queue := w.queue + up.emitted))
  }

  /** Dispatch never reads the queue: on any queue it raises the same or
      reaches the same world and appends the same entries. */
  lemma DispatchShift<S(!new), P(!new)>(h: Handlers<S, P>, w: World<S, P>, e: Event, now: Timestamp,
                            q: seq<Option<Event>>)
    ensures var r := Dispatch(h, w.(queue := []), e, now);
            && (r.Failure? ==> Dispatch(h, w.(queue := q), e, now) == r)
            && (r.Success? ==> Dispatch(h, w.(queue := q), e, now) == Success(r.value.(queue := q + r.value.queue)))
  {
    match e
    case Market(_) => MarketShift(h, w, e, now, q);
    case Signal(_) => SignalShift(h, w, e, now, q);
    case Fill(_) => FillShift(h, w, e, now, q);
    case Order(_) => OrderShift(h, w, e, now, q);
  }

  lemma MarketShift<S(!new), P(!new)>(h: Handlers<S, P>, w: World<S, P>, e: Event, now: Timestamp,
                            q: seq<Option<Event>>)
    requires e.Market?
    ensures var r := Dispatch(h, w.(queue := []), e, now);
            && (r.Failure? ==> Dispatch(h, w.(queue := q), e, now) == r)
            && (r.Success? ==> Dispatch(h, w.(queue := q), e, now) == Success(r.value.(queue := q + r.value.queue)))
  {
    var r := Dispatch(h, w.(queue := []), e, now);
    var r' := Dispatch(h, w.(queue := q), e, now);
    var st := h.calculateSignals(w.strategy, w.feed, e);
    var c := Execution.CheckStopOrders(w.stops, e);
    if st.Success? && c.Success? {
      var fl := ApplyFills(h, w.portfolio, w.feed, Execution.StopFills(c.value.fired));
      if fl.Success? {
        var ti := h.updateTimeindex(fl.value.state, w.feed, e.market);
        if ti.Success? {
          var em := st.value.emitted + fl.value.emitted + ti.value.emitted;
          QueueAssoc(q, st.value.emitted + fl.value.emitted, ti.value.emitted);
          QueueAssoc(q, st.value.emitted, fl.value.emitted);
          assert [] + st.value.emitted == st.value.emitted;
          var base := w.(strategy := st.value.state, stops := c.value.pending, portfolio := ti.value.state);
          assert r == Success(base.(queue := em));
          assert r' == Success(base.(queue := q + em));
        }
      }
    }
  }

  lemma SignalShift<S(!new), P(!new)>(h: Handlers<S, P>, w: World<S, P>, e: Event, now: Timestamp,
                            q: seq<Option<Event>>)
    requires e.Signal?
    ensures var r := Dispatch(h, w.(queue := []), e, now);
            && (r.Failure? ==> Dispatch(h, w.(queue := q), e, now) == r)
            && (r.Success? ==> Dispatch(h, w.(queue := q), e, now) == Success(r.value.(queue := q + r.value.queue)))
  {
    var up := h.updateSignal(w.portfolio, w.feed, e.signal);
    if up.Success? {
      assert [] + up.value.emitted == up.value.emitted;
      assert Dispatch(h, w.(queue := []), e, now) ==
             Success(w.(signals := w.signals + 1, portfolio := up.value.state, queue := up.value.emitted));
      assert Dispatch(h, w.(queue := q), e, now) ==
             Success(w.(signals := w.signals + 1, portfolio := up.value.state, queue := q + up.value.emitted));
    }
  }

  lemma FillShift<S(!new), P(!new)>(h: Handlers<S, P>, w: World<S, P>, e: Event, now: Timestamp,
                            q: seq<Option<Event>>)
    requires e.Fill?
    ensures var r := Dispatch(h, w.(queue := []), e, now);
            && (r.Failure? ==> Dispatch(h, w.(queue := q), e, now) == r)
            && (r.Success? ==> Dispatch(h, w.(queue := q), e, now) == Success(r.value.(queue := q + r.value.queue)))
  {
    var up := h.updateFill(w.portfolio, w.feed, e.fill);
    if up.Success? {
      assert [] + up.value.emitted == up.value.emitted;
      assert Dispatch(h, w.(queue := []), e, now) ==
             Success(w.(fills := w.fills + 1, portfolio := up.value.state, queue := up.value.emitted));
      assert Dispatch(h, w.(queue := q), e, now) ==
             Success(w.(fills := w.fills + 1, portfolio := up.value.state, queue := q + up.value.emitted));
    }
  }

  lemma OrderShift<S(!new), P(!new)>(h: Handlers<S, P>, w: World<S, P>, e: Event, now: Timestamp,
                            q: seq<Option<Event>>)
    requires e.Order?
    ensures var r := Dispatch(h, w.(queue := []), e, now);
            && (r.Failure? ==> Dispatch(h, w.(queue := q), e, now) == r)
            && (r.Success? ==> Dispatch(h, w.(queue := q), e, now) == Success(r.value.(queue := q + r.value.queue)))
  {
    var ex := Execution.ExecuteOrder(w.stops, e, now);
    assert [] + Queued(ex.enqueued) == Queued(ex.enqueued);
    assert Dispatch(h, w.(queue := []), e, now) ==
           Success(w.(orders := w.orders + 1, stops := ex.pending, queue := Queued(ex.enqueued)));
    assert Dispatch(h, w.(queue := q), e, now) ==
           Success(w.(orders := w.orders + 1, stops := ex.pending, queue := q + Queued(ex.enqueued)));
  }

  /** The events of a trace dispatched one after another from `w`, stopping
      at the first that raises: the reference the queue-draining loop is
      measured against. */
  function Replay<S(!new), P(!new)>(h: Handlers<S, P>, w: World<S, P>, es: seq<Event>, now: Timestamp): (r: Result<World<S, P>>)
    ensures r.Success? ==> r.value.feed == w.feed && w.queue <= r.value.queue
    ensures r.Success? ==>
              && r.value.signals == w.signals + CountTag(es, "SIGNAL")
              && r.value.orders == w.orders + CountTag(es, "ORDER")
              && r.value.fills == w.fills + CountTag(es, "FILL")
    decreases |es|
  {
    if |es| == 0 then Success(w)
    else
      match Dispatch(h, w, es[0], now)
      case Failure(f) => Failure(f)
      case Success(w1) => Replay(h, w1, es[1..], now)
  }

  /** Replaying a trace on a longer queue only puts that queue in front. */
  lemma {:induction false} ReplayShift<S(!new), P(!new)>(h: Handlers<S, P>, w: World<S, P>, es: seq<Event>, now: Timestamp,
                                             q: seq<Option<Event>>)
    ensures var r := Replay(h, w.(queue := []), es, now);
            && (r.Failure? ==> Replay(h, w.(queue := q), es, now) == r)
            && (r.Success? ==> Replay(h, w.(queue := q), es, now) == Success(r.value.(queue := q + r.value.queue)))
    decreases |es|
  {
    if |es| > 0 {
      DispatchShift(h, w, es[0], now, q);
      var d := Dispatch(h, w.(queue := []), es[0], now);
      if d.Success? {
        var dq := d.value.queue;
        assert Dispatch(h, w.(queue := q), es[0], now) == Success(d.value.(queue := q + dq));
        assert Replay(h, w.(queue := q), es, now) == Replay(h, d.value.(queue := q + dq), es[1..], now);
        assert Replay(h, w.(queue := []), es, now) == Replay(h, d.value, es[1..], now);
        ReplayShift(h, d.value, es[1..], now, q + dq);
        ReplayShift(h, d.value, es[1..], now, dq);
        assert d.value.(queue := dq) == d.value;
        var r0 := Replay(h, d.value.(queue := []), es[1..], now);
        if r0.Success? {
          var r := Replay(h, d.value, es[1..], now);
          assert r == Success(r0.value.(queue := dq + r0.value.queue));
          assert r.value.(queue := q + r.value.queue) == r0.value.(queue := q + (dq + r0.value.queue));
          QueueAssoc(q, dq, r0.value.queue);
        }
      }
    } else {
      assert q + [] == q;
    }
  }

  lemma QueueAssoc(a: seq<Option<Event>>, b: seq<Option<Event>>, c: seq<Option<Event>>)
    ensures a + b + c == a + (b + c)
  {
  }

  /** The outcome of draining the queue: the world afterwards, the events
      dispatched in order, and everything the dispatched events put on the
      queue, in order; or the fault that ended the run, with the events
      dispatched up to and including the one that raised. */
  datatype Drain<S, P> =
    | Drained(world: World<S, P>, trace: seq<Event>, added: seq<Option<Event>>)
    | Crashed(fault: Fault, trace: seq<Event>)
    | DrainOutOfFuel

  /** The inner loop of `_run_backtest`: take the queue's head until the
      queue is empty, skipping `None` and dispatching everything else. The
      events are dispatched in FIFO order: exactly the events that were
      queued before or during the drain, in queue order; dispatching the
      trace one event after another from an empty queue reaches the final
      world and queues exactly `added`, or raises the fault of a crash. Each
      counter grows by the number of dispatched events of its kind, the
      queue ends empty and the bars do not change. */
  function DrainQueue<S(!new), P(!new)>(h: Handlers<S, P>, w: World<S, P>, now: Timestamp, fuel: nat): (r: Drain<S, P>)
    ensures r.Drained? ==>
              && r.world.queue == []
              && r.trace == Present(w.queue + r.added)
              && r.world.signals == w.signals + CountTag(r.trace, "SIGNAL")
              && r.world.orders == w.orders + CountTag(r.trace, "ORDER")
              && r.world.fills == w.fills + CountTag(r.trace, "FILL")
              && r.world.feed == w.feed
    ensures r.Crashed? ==> |r.trace| > 0
    decreases fuel
  {
    if |w.queue| == 0 then
      assert w.queue + [] == [];
      Drained(w, [], [])
    else if fuel == 0 then DrainOutOfFuel
    else
      var head := w.queue[0];
      var popped := w.(queue := w.queue[1..]);
      match head
      case None =>
        (match DrainQueue(h, popped, now, fuel - 1)
         case Drained(w2, t, added) =>
           DrainSkipStep(w.queue, added);
           Drained(w2, t, added)
         case other => other)
      case Some(e) =>
        match Dispatch(h, popped, e, now)
        case Failure(f) => Crashed(f, [e])
        case Success(w1) =>
          var em := w1.queue[|popped.queue|..];
          match DrainQueue(h, w1, now, fuel - 1)
          case Drained(w2, t, added) =>
            DrainDispatchStep(w.queue, w1.queue, em, added);
            CountTagAppend([e], t, "SIGNAL");
            CountTagAppend([e], t, "ORDER");
            CountTagAppend([e], t, "FILL");
            Drained(w2, [e] + t, em + added)
          case Crashed(f, t) => Crashed(f, [e] + t)
          case DrainOutOfFuel => DrainOutOfFuel
  }

  /** Draining agrees with dispatching its trace one event after another
      from the same world with an empty queue: a drained queue reaches the
      final world and queues exactly `added`; a crash raises its fault on
      the trace's last event. */
  lemma {:induction false} DrainIsReplay<S(!new), P(!new)>(h: Handlers<S, P>, w: World<S, P>, now: Timestamp, fuel: nat)
    ensures var r := DrainQueue(h, w, now, fuel);
            && (r.Drained? ==> Replay(h, w.(queue := []), r.trace, now) == Success(r.world.(queue := r.added)))
            && (r.Crashed? ==> Replay(h, w.(queue := []), r.trace, now) == Failure(r.fault))
    decreases fuel, 2
  {
    if |w.queue| == 0 {
      assert w.(queue := []) == w;
    } else if fuel > 0 {
      match w.queue[0]
      case None =>
        var popped := w.(queue := w.queue[1..]);
        assert popped.(queue := []) == w.(queue := []);
        DrainIsReplay(h, popped, now, fuel - 1);
      case Some(e) =>
        DrainReplayHead(h, w, e, now, fuel);
    }
  }

  /** `DrainIsReplay` when the queue's head is an event. */
  lemma {:induction false} DrainReplayHead<S(!new), P(!new)>(h: Handlers<S, P>, w: World<S, P>, e: Event,
                                                             now: Timestamp, fuel: nat)
    requires |w.queue| > 0 && w.queue[0] == Some(e) && fuel > 0
    ensures var r := DrainQueue(h, w, now, fuel);
            && (r.Drained? ==> Replay(h, w.(queue := []), r.trace, now) == Success(r.world.(queue := r.added)))
            && (r.Crashed? ==> Replay(h, w.(queue := []), r.trace, now) == Failure(r.fault))
    decreases fuel, 1
  {
    var d1 := Dispatch(h, w.(queue := w.queue[1..]), e, now);
    DrainHeadStep(h, w, e, now, fuel);
    if d1.Failure? {
      ReplayFailedHead(h, w, e, now, d1.fault);
    } else {
      DrainIsReplay(h, d1.value, now, fuel - 1);
      ReplayDispatchedHead(h, w, e, now, d1.value, DrainQueue(h, d1.value, now, fuel - 1), DrainQueue(h, w, now, fuel));
    }
  }

  /** A head event whose dispatch from the popped world raises also raises
      when replayed alone from the world with an empty queue. */
  lemma ReplayFailedHead<S(!new), P(!new)>(h: Handlers<S, P>, w: World<S, P>, e: Event, now: Timestamp, f: Fault)
    requires |w.queue| > 0 && Dispatch(h, w.(queue := w.queue[1..]), e, now) == Failure(f)
    ensures Replay(h, w.(queue := []), [e], now) == Failure(f)
  {
    var popped := w.(queue := w.queue[1..]);
    assert popped.(queue := []) == w.(queue := []);
    DispatchShift(h, popped, e, now, popped.queue);
    assert popped.(queue := popped.queue) == popped;
    assert [e][0] == e && [e][1..] == [];
  }

  /** `DrainReplayDispatched` stated with the popped world: the head `e`
      dispatched from it to `w1`, and the rest `r1` of the drain from `w1`
      replays from `w1` with an empty queue. */
  lemma ReplayDispatchedHead<S(!new), P(!new)>(h: Handlers<S, P>, w: World<S, P>, e: Event, now: Timestamp,
                                               w1: World<S, P>, r1: Drain<S, P>, r: Drain<S, P>)
    requires |w.queue| > 0 && Dispatch(h, w.(queue := w.queue[1..]), e, now) == Success(w1)
    requires r1.Drained? ==> Replay(h, w1.(queue := []), r1.trace, now) == Success(r1.world.(queue := r1.added))
    requires r1.Crashed? ==> Replay(h, w1.(queue := []), r1.trace, now) == Failure(r1.fault)
    requires r1.Drained? ==> r == Drained(r1.world, [e] + r1.trace, w1.queue[|w.queue| - 1..] + r1.added)
    requires r1.Crashed? ==> r == Crashed(r1.fault, [e] + r1.trace)
    requires r1.DrainOutOfFuel? ==> r == DrainOutOfFuel
    ensures r.Drained? ==> Replay(h, w.(queue := []), r.trace, now) == Success(r.world.(queue := r.added))
    ensures r.Crashed? ==> Replay(h, w.(queue := []), r.trace, now) == Failure(r.fault)
  {
    var popped := w.(queue := w.queue[1..]);
    assert popped.(queue := []) == w.(queue := []);
    DispatchShift(h, popped, e, now, popped.queue);
    assert popped.(queue := popped.queue) == popped;
    var d := Dispatch(h, w.(queue := []), e, now);
    assert w1.queue[|popped.queue|..] == d.value.queue && w1.(queue := []) == d.value.(queue := []);
    DrainReplayDispatched(h, w.(queue := []), e, now, d.value, r1, r);
  }

  /** `DrainReplayHead` when the head's dispatch succeeds: `r` is the drain
      that dispatched `e` from `w0` to `d` and then went on as `r1`, a drain
      that replays from `d` with an empty queue. The replay dispatches `e`
      and then replays the rest of the trace from `d`. */
  lemma DrainReplayDispatched<S(!new), P(!new)>(h: Handlers<S, P>, w0: World<S, P>, e: Event, now: Timestamp,
                                                d: World<S, P>, r1: Drain<S, P>, r: Drain<S, P>)
    requires Dispatch(h, w0, e, now) == Success(d)
    requires r1.Drained? ==> Replay(h, d.(queue := []), r1.trace, now) == Success(r1.world.(queue := r1.added))
    requires r1.Crashed? ==> Replay(h, d.(queue := []), r1.trace, now) == Failure(r1.fault)
    requires r1.Drained? ==> r == Drained(r1.world, [e] + r1.trace, d.queue + r1.added)
    requires r1.Crashed? ==> r == Crashed(r1.fault, [e] + r1.trace)
    requires r1.DrainOutOfFuel? ==> r == DrainOutOfFuel
    ensures r.Drained? ==> Replay(h, w0, r.trace, now) == Success(r.world.(queue := r.added))
    ensures r.Crashed? ==> Replay(h, w0, r.trace, now) == Failure(r.fault)
  {
    if r1.Drained? {
      ReplayAfterDrained(h, w0, e, now, d, r1);
      assert r.world.(queue := r.added) == r1.world.(queue := d.queue + r1.added);
    } else if r1.Crashed? {
      ReplayCons(h, w0, e, r1.trace, now, d, Failure(r1.fault));
    }
  }

  /** `ReplayCons` for a drain that finished: the replay ends in the
      drained world, holding what the head emitted and then what the drain
      added. */
  lemma ReplayAfterDrained<S(!new), P(!new)>(h: Handlers<S, P>, w0: World<S, P>, e: Event, now: Timestamp,
                                             d: World<S, P>, r1: Drain<S, P>)
    requires Dispatch(h, w0, e, now) == Success(d)
    requires r1.Drained? && Replay(h, d.(queue := []), r1.trace, now) == Success(r1.world.(queue := r1.added))
    ensures Replay(h, w0, [e] + r1.trace, now) == Success(r1.world.(queue := d.queue + r1.added))
  {
    var x := r1.world.(queue := r1.added);
    ReplayCons(h, w0, e, r1.trace, now, d, Success(x));
    assert x.(queue := d.queue + x.queue) == r1.world.(queue := d.queue + r1.added);
  }

  /** Replaying an event followed by a trace: the event's dispatch, then the
      trace from the dispatched world, whose queue already holds what the
      event emitted. */
  lemma ReplayCons<S(!new), P(!new)>(h: Handlers<S, P>, w: World<S, P>, e: Event, t: seq<Event>, now: Timestamp,
                                     d: World<S, P>, rest: Result<World<S, P>>)
    requires Dispatch(h, w, e, now) == Success(d)
    requires Replay(h, d.(queue := []), t, now) == rest
    ensures rest.Failure? ==> Replay(h, w, [e] + t, now) == rest
    ensures rest.Success? ==> Replay(h, w, [e] + t, now) == Success(rest.value.(queue := d.queue + rest.value.queue))
  {
    ReplayShift(h, d, t, now, d.queue);
    assert d.(queue := d.queue) == d;
    assert ([e] + t)[0] == e && ([e] + t)[1..] == t;
  }

  /** One pass of the drain loop with an event at the head: a failing
      dispatch crashes on that event; otherwise the rest of the drain runs
      on the dispatched world, and its trace follows the event. */
  lemma DrainHeadStep<S(!new), P(!new)>(h: Handlers<S, P>, w: World<S, P>, e: Event, now: Timestamp, fuel: nat)
    requires |w.queue| > 0 && w.queue[0] == Some(e) && fuel > 0
    ensures var popped := w.(queue := w.queue[1..]);
            var d := Dispatch(h, popped, e, now);
            var r := DrainQueue(h, w, now, fuel);
            && (d.Failure? ==> r == Crashed(d.fault, [e]))
            && (d.Success? ==>
                  var r1 := DrainQueue(h, d.value, now, fuel - 1);
                  && (r1.Drained? ==>
                        r == Drained(r1.world, [e] + r1.trace, d.value.queue[|popped.queue|..] + r1.added))
                  && (r1.Crashed? ==> r == Crashed(r1.fault, [e] + r1.trace))
                  && (r1.DrainOutOfFuel? ==> r == DrainOutOfFuel))
  {
  }

  /** What a crash of a drain from `w` promises: every event of its trace
      but the last dispatches without raising, when replayed from `w` with
      an empty queue; and the trace is the start of the events the drain
      could take, those of the old queue followed by those the successful
      dispatches queued. With `DrainIsReplay` the last event is the one
      that raised. */
  predicate CrashedAfterReplay<S(!new), P(!new)>(h: Handlers<S, P>, w: World<S, P>, r: Drain<S, P>, now: Timestamp)
  {
    r.Crashed? ==>
      && |r.trace| > 0
      && var rp := Replay(h, w.(queue := []), r.trace[..|r.trace| - 1], now);
         && rp.Success?
         && r.trace <= Present(w.queue + rp.value.queue)
  }

  /** A crashed drain dispatched, in FIFO order, what the queue held and
      what the dispatches before the crash queued, and everything before
      its last event went through. */
  lemma {:induction false} CrashIsReplay<S(!new), P(!new)>(h: Handlers<S, P>, w: World<S, P>, now: Timestamp, fuel: nat)
    ensures CrashedAfterReplay(h, w, DrainQueue(h, w, now, fuel), now)
    decreases fuel, 1
  {
    if |w.queue| > 0 && fuel > 0 {
      var popped := w.(queue := w.queue[1..]);
      match w.queue[0]
      case None =>
        CrashIsReplay(h, popped, now, fuel - 1);
        var r := DrainQueue(h, w, now, fuel);
        if r.Crashed? {
          assert r == DrainQueue(h, popped, now, fuel - 1);
          assert popped.(queue := []) == w.(queue := []);
          var rp := Replay(h, w.(queue := []), r.trace[..|r.trace| - 1], now);
          DrainSkipStep(w.queue, rp.value.queue);
        }
      case Some(e) =>
        CrashHead(h, w, e, now, fuel);
    }
  }

  /** `CrashIsReplay` when the queue's head is an event. */
  lemma {:induction false} CrashHead<S(!new), P(!new)>(h: Handlers<S, P>, w: World<S, P>, e: Event, now: Timestamp, fuel: nat)
    requires |w.queue| > 0 && w.queue[0] == Some(e) && fuel > 0
    ensures CrashedAfterReplay(h, w, DrainQueue(h, w, now, fuel), now)
    decreases fuel, 0
  {
    var popped := w.(queue := w.queue[1..]);
    DrainHeadStep(h, w, e, now, fuel);
    var d1 := Dispatch(h, popped, e, now);
    if d1.Failure? {
      CrashAtHead(h, w, e, now, DrainQueue(h, w, now, fuel));
    } else {
      CrashIsReplay(h, d1.value, now, fuel - 1);
      CrashAfterDispatch(h, w, e, now, d1.value, DrainQueue(h, d1.value, now, fuel - 1), DrainQueue(h, w, now, fuel));
    }
  }

  /** A drain whose head `e` dispatched from the popped world to `w1` and
      whose rest `r1` from `w1` crashed after a replay, crashed after a
      replay. */
  lemma CrashAfterDispatch<S(!new), P(!new)>(h: Handlers<S, P>, w: World<S, P>, e: Event, now: Timestamp,
                                             w1: World<S, P>, r1: Drain<S, P>, r: Drain<S, P>)
    requires |w.queue| > 0 && w.queue[0] == Some(e)
    requires Dispatch(h, w.(queue := w.queue[1..]), e, now) == Success(w1)
    requires CrashedAfterReplay(h, w1, r1, now)
    requires r1.Crashed? ==> r == Crashed(r1.fault, [e] + r1.trace)
    requires !r1.Crashed? ==> !r.Crashed?
    ensures CrashedAfterReplay(h, w, r, now)
  {
    var popped := w.(queue := w.queue[1..]);
    assert popped.(queue := []) == w.(queue := []);
    DispatchShift(h, popped, e, now, popped.queue);
    assert popped.(queue := popped.queue) == popped;
    CrashAfterHead(h, w, e, now, w1, w1.queue[|popped.queue|..], r1, r);
  }

  /** A drain that crashes on the queue's head event. */
  lemma CrashAtHead<S(!new), P(!new)>(h: Handlers<S, P>, w: World<S, P>, e: Event, now: Timestamp, r: Drain<S, P>)
    requires |w.queue| > 0 && w.queue[0] == Some(e)
    requires r.Crashed? && r.trace == [e]
    ensures CrashedAfterReplay(h, w, r, now)
  {
    assert w.queue + [] == w.queue;
    assert Present(w.queue) == [e] + Present(w.queue[1..]);
    assert [e][..0] == [];
  }

  /** A drain whose head `e` dispatched to `w1` and whose rest `r1` from
      `w1` crashed, crashed after a replay. */
  lemma CrashAfterHead<S(!new), P(!new)>(h: Handlers<S, P>, w: World<S, P>, e: Event, now: Timestamp,
                                         w1: World<S, P>, em: seq<Option<Event>>, r1: Drain<S, P>, r: Drain<S, P>)
    requires |w.queue| > 0 && w.queue[0] == Some(e)
    requires w.queue[1..] <= w1.queue && em == w1.queue[|w.queue[1..]|..]
    requires Dispatch(h, w.(queue := []), e, now) == Success(w1.(queue := em))
    requires CrashedAfterReplay(h, w1, r1, now)
    requires r1.Crashed? ==> r == Crashed(r1.fault, [e] + r1.trace)
    requires !r1.Crashed? ==> !r.Crashed?
    ensures CrashedAfterReplay(h, w, r, now)
  {
    if r1.Crashed? {
      CrashCons(h, w, e, now, w1, em, r1.trace);
    }
  }

  /** The step of `CrashHead`: the head `e` dispatched from `w` with an
      empty queue to `w1` with only `em` queued, and the rest of the drain
      from `w1` crashed with trace `t`. */
  lemma CrashCons<S(!new), P(!new)>(h: Handlers<S, P>, w: World<S, P>, e: Event, now: Timestamp,
                                    w1: World<S, P>, em: seq<Option<Event>>, t: seq<Event>)
    requires |w.queue| > 0 && w.queue[0] == Some(e)
    requires w.queue[1..] <= w1.queue && em == w1.queue[|w.queue[1..]|..]
    requires Dispatch(h, w.(queue := []), e, now) == Success(w1.(queue := em))
    requires |t| > 0
    requires var rp1 := Replay(h, w1.(queue := []), t[..|t| - 1], now);
             rp1.Success? && t <= Present(w1.queue + rp1.value.queue)
    ensures var t0 := [e] + t;
            var rp := Replay(h, w.(queue := []), t0[..|t0| - 1], now);
            && rp.Success?
            && t0 <= Present(w.queue + rp.value.queue)
  {
    var rp1 := Replay(h, w1.(queue := []), t[..|t| - 1], now);
    var t0 := [e] + t;
    assert t0[..|t0| - 1] == [e] + t[..|t| - 1];
    assert (w1.(queue := em)).(queue := []) == w1.(queue := []);
    ReplayCons(h, w.(queue := []), e, t[..|t| - 1], now, w1.(queue := em), rp1);
    var rp := Replay(h, w.(queue := []), t0[..|t0| - 1], now);
    assert rp == Success(rp1.value.(queue := em + rp1.value.queue));
    DrainDispatchStep(w.queue, w1.queue, em, rp1.value.queue);
    PrefixCons(e, t, Present(w1.queue + rp1.value.queue));
  }

  lemma PrefixCons(e: Event, a: seq<Event>, b: seq<Event>)
    requires a <= b
    ensures [e] + a <= [e] + b
  {
    assert ([e] + b)[..|[e] + a|] == [e] + b[..|a|];
  }

  /** Skipping a `None` head leaves the events of the queue unchanged. */
  lemma DrainSkipStep(q: seq<Option<Event>>, added: seq<Option<Event>>)
    requires |q| > 0 && q[0].None?
    ensures Present(q + added) == Present(q[1..] + added)
  {
    assert (q + added)[0] == None && (q + added)[1..] == q[1..] + added;
  }

  /** Dispatching the head `e`: the events of the old queue and of what was
      added are `e` followed by those of the queue after dispatch. */
  lemma DrainDispatchStep(q: seq<Option<Event>>, q1: seq<Option<Event>>, em: seq<Option<Event>>,
                          added: seq<Option<Event>>)
    requires |q| > 0 && q[0].Some?
    requires q[1..] <= q1 && em == q1[|q[1..]|..]
    ensures Present(q + (em + added)) == [q[0].value] + Present(q1 + added)
  {
    assert q1 == q[1..] + em;
    assert q + (em + added) == [q[0]] + (q1 + added);
    PresentAppend([q[0]], q1 + added);
  }

  /** How many dispatches a queue can still cause when the handlers queue
      nothing: one per entry, plus one for the fill a market order queues. */
  function Work(q: seq<Option<Event>>): (n: nat)
    ensures |q| <= n <= 2 * |q|
  {
    if |q| == 0 then 0
    else (if q[0].Some? && q[0].value.Order? then 2 else 1) + Work(q[1..])
  }

  lemma WorkAppend(a: seq<Option<Event>>, b: seq<Option<Event>>)
    ensures Work(a + b) == Work(a) + Work(b)
  {
    if |a| == 0 {
      assert a + b == b;
    } else {
      assert (a + b)[0] == a[0] && (a + b)[1..] == a[1..] + b;
      WorkAppend(a[1..], b);
    }
  }

  /** With handlers that queue nothing, only an order adds to the queue, and
      then at most one fill. */
  lemma SilentDispatch<S(!new), P(!new)>(h: Handlers<S, P>, w: World<S, P>, e: Event, now: Timestamp)
    requires Silent(h)
    ensures var r := Dispatch(h, w, e, now);
            r.Success? ==> Work(r.value.queue) <= Work(w.queue) + (if e.Order? then 1 else 0)
  {
    var r := Dispatch(h, w, e, now);
    if r.Success? {
      match e
      case Market(m) =>
        var st := h.calculateSignals(w.strategy, w.feed, e);
        var c := Execution.CheckStopOrders(w.stops, e);
        assert st.Success? && c.Success?;
        var fl := ApplyFills(h, w.portfolio, w.feed, Execution.StopFills(c.value.fired));
        assert fl.Success?;
        var ti := h.updateTimeindex(fl.value.state, w.feed, m);
        assert ti.Success?;
        assert st.value.emitted == [] && fl.value.emitted == [] && ti.value.emitted == [];
        assert r.value.queue == w.queue + st.value.emitted + fl.value.emitted + ti.value.emitted;
        assert w.queue + [] + [] + [] == w.queue;
      case Signal(x) =>
        var up := h.updateSignal(w.portfolio, w.feed, x);
        assert up.Success? && up.value.emitted == [];
        assert r.value.queue == w.queue + up.value.emitted;
        assert w.queue + [] == w.queue;
      case Fill(x) =>
        var up := h.updateFill(w.portfolio, w.feed, x);
        assert up.Success? && up.value.emitted == [];
        assert r.value.queue == w.queue + up.value.emitted;
        assert w.queue + [] == w.queue;
      case Order(o) =>
        var ex := Execution.ExecuteOrder(w.stops, e, now);
        WorkAppend(w.queue, Queued(ex.enqueued));
        assert r.value.queue == w.queue + Queued(ex.enqueued);
        if o.orderType.Mkt? {
          var qd := Queued(ex.enqueued);
          assert |qd| == 1 && qd[0] == Some(ex.enqueued[0]) && ex.enqueued[0].Fill?;
          assert |qd[1..]| == 0;
          assert Work(qd) == 1 + Work(qd[1..]);
        } else {
          assert Queued(ex.enqueued) == [];
        }
    }
  }

  /** Handlers that queue nothing cannot keep the drain going: fuel of one
      per queued entry and one more per queued order always suffices, and
      the drain ends drained or crashed. */
  lemma {:induction false} DrainTerminates<S(!new), P(!new)>(h: Handlers<S, P>, w: World<S, P>, now: Timestamp, fuel: nat)
    requires Silent(h) && fuel >= Work(w.queue)
    ensures !DrainQueue(h, w, now, fuel).DrainOutOfFuel?
    decreases fuel, 1
  {
    if |w.queue| > 0 {
      var popped := w.(queue := w.queue[1..]);
      match w.queue[0]
      case None =>
        assert Work(w.queue) == 1 + Work(popped.queue);
        DrainTerminates(h, popped, now, fuel - 1);
      case Some(e) =>
        DrainTerminatesHead(h, w, e, now, fuel);
    }
  }

  /** `DrainTerminates` when the queue's head is an event. */
  lemma {:induction false} DrainTerminatesHead<S(!new), P(!new)>(h: Handlers<S, P>, w: World<S, P>, e: Event,
                                                                 now: Timestamp, fuel: nat)
    requires Silent(h) && |w.queue| > 0 && w.queue[0] == Some(e) && fuel >= Work(w.queue)
    ensures !DrainQueue(h, w, now, fuel).DrainOutOfFuel?
    decreases fuel, 0
  {
    var popped := w.(queue := w.queue[1..]);
    assert Work(w.queue) == (if e.Order? then 2 else 1) + Work(popped.queue);
    DrainHeadStep(h, w, e, now, fuel);
    var d := Dispatch(h, popped, e, now);
    if d.Success? {
      SilentDispatch(h, popped, e, now);
      DrainTerminates(h, d.value, now, fuel - 1);
    }
  }

  /** Two units of fuel per queued entry always suffice for handlers that
      queue nothing. */
  lemma DrainTerminatesWithTwicePerEntry<S(!new), P(!new)>(h: Handlers<S, P>, w: World<S, P>, now: Timestamp, fuel: nat)
    requires Silent(h) && fuel >= 2 * |w.queue|
    ensures !DrainQueue(h, w, now, fuel).DrainOutOfFuel?
  {
    DrainTerminates(h, w, now, fuel);
  }

  /** One unit of fuel per entry is not enough: a market order queues its
      fill, which needs a second pass of the loop. */
  lemma MarketOrderNeedsSecondPass<S(!new), P(!new)>(h: Handlers<S, P>, w: World<S, P>, o: OrderEvent, now: Timestamp)
    requires w.queue == [Some(Order(o))] && o.orderType.Mkt?
    ensures DrainQueue(h, w, now, 1) == DrainOutOfFuel
  {
    var popped := w.(queue := []);
    var d := Dispatch(h, popped, Order(o), now);
    assert d.Success? && |d.value.queue| == 1;
  }

  /** With handlers that queue nothing, a queue holding one market event
      drains after exactly that event: the stops it triggers reach the
      portfolio's `update_fill` without passing through the queue, so no
      fill is dispatched or counted, and the portfolio ends as the time
      index update leaves it after those fills. */
  lemma StopFillsBypassQueue<S(!new), P(!new)>(h: Handlers<S, P>, w: World<S, P>, m: MarketEvent, now: Timestamp, fuel: nat)
    requires Silent(h) && fuel >= 1 && w.queue == [Some(Market(m))]
    ensures var r := DrainQueue(h, w, now, fuel);
            && !r.DrainOutOfFuel?
            && (r.Drained? ==>
                  var c := Execution.CheckStopOrders(w.stops, Market(m));
                  && r.trace == [Market(m)] && r.added == []
                  && r.world.fills == w.fills && r.world.queue == []
                  && c.Success? && r.world.stops == c.value.pending
                  && var fl := ApplyFills(h, w.portfolio, w.feed, Execution.StopFills(c.value.fired));
                     && fl.Success?
                     && r.world.portfolio == h.updateTimeindex(fl.value.state, w.feed, m).value.state)
  {
    var popped := w.(queue := []);
    var d := Dispatch(h, popped, Market(m), now);
    if d.Success? {
      SilentDispatch(h, popped, Market(m), now);
      var c := Execution.CheckStopOrders(w.stops, Market(m));
      var fl := ApplyFills(h, w.portfolio, w.feed, Execution.StopFills(c.value.fired));
      assert d.value.queue == [] + [] + [] + [];
      assert [Market(m)] + [] == [Market(m)];
    }
  }

  /** The outcome of the outer loop: the final world, the market event of
      every tick, and the events dispatched in every tick, in order. A
      crash records the exception, the ticks that completed before it and
      the world the raising tick started from. */
  datatype Run<S, P> =
    | Finished(world: World<S, P>, markets: seq<MarketEvent>, traces: seq<seq<Event>>)
    | RunCrashed(fault: Fault, markets: seq<MarketEvent>, traces: seq<seq<Event>>, world: World<S, P>)
    | RunOutOfFuel

  /** All ticks' dispatched events, in order. */
  function Flatten(ts: seq<seq<Event>>): (t: seq<Event>)
    ensures ts == [] ==> t == []
  {
    if |ts| == 0 then [] else ts[0] + Flatten(ts[1..])
  }

  /** The outcome of one pass of the outer loop's body. */
  datatype Tick<S, P> =
    | Ticked(world: World<S, P>, market: MarketEvent, trace: seq<Event>)
    | TickCrashed(fault: Fault)
    | TickOutOfFuel

  /** What a pass of the outer loop from `w` that reached `w2` promises:
      the queue is empty again, the bars have advanced by one update, the
      trace starts with the market event `m` the update queued, and each
      counter grows by the number of events of its kind in the trace. */
  predicate TickedFrom<S, P>(w: World<S, P>, w2: World<S, P>, m: MarketEvent, t: seq<Event>)
    requires BarFeed.Valid(w.feed)
  {
    && w2.queue == [] && w2.feed == BarFeed.Advance(w.feed)
    && |t| > 0 && t[0] == Market(m)
    && w2.signals == w.signals + CountTag(t, "SIGNAL")
    && w2.orders == w.orders + CountTag(t, "ORDER")
    && w2.fills == w.fills + CountTag(t, "FILL")
  }

  /** One pass of the outer loop's body: `update_bars` queues one market
      event on the empty queue, and the drain dispatches it first. If the
      update raises, so does the pass; otherwise the pass ends as the drain
      does, with the drain's fault if it raised. A pass that goes through
      has advanced the bars by one update and emptied the queue, and its
      world is what dispatching the trace one event after another reaches.
      Handlers that queue nothing need one unit of fuel. */
  function RunTick<S(!new), P(!new)>(h: Handlers<S, P>, w: World<S, P>, now: Timestamp, drainFuel: nat): (r: Tick<S, P>)
    requires BarFeed.Valid(w.feed) && w.queue == []
    ensures BarFeed.UpdateBars(w.feed).Failure? ==> r == TickCrashed(BarFeed.UpdateBars(w.feed).fault)
    ensures r.Ticked? ==>
              && TickedFrom(w, r.world, r.market, r.trace)
              && BarFeed.UpdateBars(w.feed) == Success(BarFeed.Tick(r.world.feed, r.market))
    ensures Silent(h) && drainFuel >= 1 ==> !r.TickOutOfFuel?
    ensures var u := BarFeed.UpdateBars(w.feed);
            u.Success? ==>
              var d := DrainQueue(h, w.(feed := u.value.feed, queue := [Some(Market(u.value.market))]), now, drainFuel);
              && (r.Ticked? <==> d.Drained?)
              && (d.Drained? ==> r.world == d.world && r.market == u.value.market && r.trace == d.trace)
              && (d.Crashed? ==> r == TickCrashed(d.fault))
              && (d.DrainOutOfFuel? ==> r == TickOutOfFuel)
  {
    match BarFeed.UpdateBars(w.feed)
    case Failure(f) => TickCrashed(f)
    case Success(tick) =>
      var w1 := w.(feed := tick.feed, queue := [Some(Market(tick.market))]);
      assert Work(w1.queue) == 1 by { assert Work(w1.queue[1..]) == 0; }
      DrainTerminatesIf(h, w1, now, drainFuel);
      match DrainQueue(h, w1, now, drainFuel)
      case Crashed(f, _) => TickCrashed(f)
      case DrainOutOfFuel => TickOutOfFuel
      case Drained(w2, t, added) =>
        PresentAppend([Some(Market(tick.market))], added);
        Ticked(w2, tick.market, t)
  }

  /** A tick is the replay of its trace: dispatching the trace one event
      after another from the world with the updated bars reaches the
      tick's world, and the events the replay queued are exactly the rest
      of the trace, so the tick dispatched everything its events queued. */
  lemma TickIsReplay<S(!new), P(!new)>(h: Handlers<S, P>, w: World<S, P>, now: Timestamp, drainFuel: nat)
    requires BarFeed.Valid(w.feed) && w.queue == []
    ensures var r := RunTick(h, w, now, drainFuel);
            r.Ticked? ==>
              var replayed := Replay(h, w.(feed := r.world.feed), r.trace, now);
              && replayed.Success? && replayed.value.(queue := []) == r.world
              && Present(replayed.value.queue) == r.trace[1..]
  {
    var u := BarFeed.UpdateBars(w.feed);
    if u.Success? {
      var w1 := w.(feed := u.value.feed, queue := [Some(Market(u.value.market))]);
      assert w1.(queue := []) == w.(feed := u.value.feed);
      DrainIsReplay(h, w1, now, drainFuel);
      var d := DrainQueue(h, w1, now, drainFuel);
      if d.Drained? {
        PresentAppend(w1.queue, d.added);
        assert Present(w1.queue) == [Market(u.value.market)];
      }
    }
  }

  /** `DrainTerminates` under the condition `RunTick` states it with. */
  lemma DrainTerminatesIf<S(!new), P(!new)>(h: Handlers<S, P>, w: World<S, P>, now: Timestamp, fuel: nat)
    ensures Silent(h) && fuel >= Work(w.queue) ==> !DrainQueue(h, w, now, fuel).DrainOutOfFuel?
  {
    if Silent(h) && fuel >= Work(w.queue) {
      DrainTerminates(h, w, now, fuel);
    }
  }

  /** `_run_backtest`: while `continue_backtest` is set, pull one bar per
      symbol (which queues one market event) and drain the queue; stop the
      first time the flag is clear. At the end the flag is clear and the
      queue empty; every tick dispatches its own market event first; the
      tick whose update ran out of bars is still processed in full; each
      counter grows by the number of events of its kind dispatched over the
      whole run. With at least one symbol the loop runs at most one tick
      more than the first symbol has bars left. */
  function RunBacktest<S(!new), P(!new)>(h: Handlers<S, P>, w: World<S, P>, now: Timestamp, ticks: nat, drainFuel: nat)
    : (r: Run<S, P>)
    requires BarFeed.Valid(w.feed) && w.queue == []
    ensures RunPromise(h, w, now, ticks, drainFuel, r)
    decreases ticks
  {
    if !w.feed.continueBacktest then Finished(w, [], [])
    else if ticks == 0 then RunOutOfFuel
    else
      var t := RunTick(h, w, now, drainFuel);
      var rest := if t.Ticked? then RunBacktest(h, t.world, now, ticks - 1, drainFuel) else RunOutOfFuel;
      RunStep(h, w, now, ticks, drainFuel, t, rest);
      Extend(w, t, rest)
  }

  /** What a run `r` of at most `ticks` passes from `w` promises: with the
      flag clear it finishes at once; a finished run is the chain of its
      passes and keeps `FinishedFrom`; and a quiet start with more passes
      allowed than the first symbol has bars left finishes after one pass
      per bar left and one more; a crash comes after a chain of passes
      that went through, from a world whose next pass raised the crash's
      exception. */
  ghost predicate RunPromise<S(!new), P(!new)>(h: Handlers<S, P>, w: World<S, P>, now: Timestamp, ticks: nat,
                                               drainFuel: nat, r: Run<S, P>)
    requires BarFeed.Valid(w.feed)
  {
    && (!w.feed.continueBacktest ==> r == Finished(w, [], []))
    && (r.Finished? ==> FinishedChain(h, now, drainFuel, w, r))
    && (QuietStart(h, w, drainFuel) && ticks > BarsLeft(w.feed) ==>
          r.Finished? && |r.markets| == BarsLeft(w.feed) + 1)
    && (r.RunCrashed? ==> ChainThenCrash(h, now, drainFuel, w, r.markets, r.traces, r.world, r.fault))
  }

  /** The passes `ms`, `ts` from `w` reach `last`, whose flag is still set
      and whose next pass raises `f`: the first call that raises ends the
      run, and its exception is the run's. */
  ghost predicate ChainThenCrash<S(!new), P(!new)>(h: Handlers<S, P>, now: Timestamp, drainFuel: nat, w: World<S, P>,
                                                   ms: seq<MarketEvent>, ts: seq<seq<Event>>, last: World<S, P>, f: Fault)
  {
    && TickChain(h, now, drainFuel, w, ms, ts, last)
    && BarFeed.Valid(last.feed) && last.queue == [] && last.feed.continueBacktest
    && RunTick(h, last, now, drainFuel) == TickCrashed(f)
  }

  /** The run that starts with the pass `t` from `w` and goes on as
      `rest`: a pass that crashed or ran out of fuel ends the run;
      otherwise a finished or crashed rest gains the pass in front, and a
      rest out of fuel is the run's end. */
  function Extend<S, P>(w: World<S, P>, t: Tick<S, P>, rest: Run<S, P>): Run<S, P>
  {
    match t
    case TickCrashed(f) => RunCrashed(f, [], [], w)
    case TickOutOfFuel => RunOutOfFuel
    case Ticked(_, m, tr) =>
      match rest
      case Finished(last, ms, ts) => Finished(last, [m] + ms, [tr] + ts)
      case RunCrashed(f, ms, ts, last) => RunCrashed(f, [m] + ms, [tr] + ts, last)
      case RunOutOfFuel => RunOutOfFuel
  }

  /** One pass of the outer loop with the flag set: if the rest of the run
      from the pass's world keeps `RunBacktest`'s promises, so does the
      whole run from `w`. */
  lemma RunStep<S(!new), P(!new)>(h: Handlers<S, P>, w: World<S, P>, now: Timestamp, ticks: nat, drainFuel: nat,
                                  t: Tick<S, P>, rest: Run<S, P>)
    requires BarFeed.Valid(w.feed) && w.queue == [] && w.feed.continueBacktest && ticks > 0
    requires t == RunTick(h, w, now, drainFuel)
    requires t.Ticked? ==> RunPromise(h, t.world, now, ticks - 1, drainFuel, rest)
    ensures RunPromise(h, w, now, ticks, drainFuel, Extend(w, t, rest))
  {
    QuietStepIf(h, w, now, drainFuel);
    if t.Ticked? && rest.Finished? {
      ConsFinished(h, now, drainFuel, w, t.world, t.market, t.trace, rest.world, rest.markets, rest.traces);
    } else if t.TickCrashed? {
      CrashAtFirstPass(h, w, now, drainFuel, t.fault);
    } else if t.Ticked? && rest.RunCrashed? {
      CrashAfterPass(h, w, now, drainFuel, t.world, t.market, t.trace, rest.markets, rest.traces, rest.world, rest.fault);
    }
  }

  /** What a finished run from `w` promises: the flag is clear and the
      queue empty; every tick dispatches its own market event first; there
      is at least one tick exactly when the run started with the flag set;
      each counter grows by the number of events of its kind over the whole
      run; and with at least one symbol there is at most one tick more than
      the first symbol has bars left. */
  predicate FinishedFrom<S, P>(w: World<S, P>, r: Run<S, P>)
    requires BarFeed.Valid(w.feed) && r.Finished?
  {
    && !r.world.feed.continueBacktest && r.world.queue == []
    && |r.markets| == |r.traces|
    && (w.feed.continueBacktest <==> |r.markets| > 0)
    && (forall i :: 0 <= i < |r.traces| ==> |r.traces[i]| > 0 && r.traces[i][0] == Market(r.markets[i]))
    && r.world.signals == w.signals + CountTag(Flatten(r.traces), "SIGNAL")
    && r.world.orders == w.orders + CountTag(Flatten(r.traces), "ORDER")
    && r.world.fills == w.fills + CountTag(Flatten(r.traces), "FILL")
    && (w.feed.continueBacktest && |w.feed.symbols| > 0 ==>
          |r.markets| <= 1 + |w.feed.upcoming[w.feed.symbols[0]]|)
  }

  /** A finished run from `w` that is also the chain of its ticks. */
  ghost predicate FinishedChain<S(!new), P(!new)>(h: Handlers<S, P>, now: Timestamp, drainFuel: nat,
                                                  w: World<S, P>, r: Run<S, P>)
    requires BarFeed.Valid(w.feed) && r.Finished?
  {
    FinishedFrom(w, r) && TickChain(h, now, drainFuel, w, r.markets, r.traces, r.world)
  }

  /** A run whose first pass raises crashes after the empty chain. */
  lemma CrashAtFirstPass<S(!new), P(!new)>(h: Handlers<S, P>, w: World<S, P>, now: Timestamp, drainFuel: nat, f: Fault)
    requires BarFeed.Valid(w.feed) && w.queue == [] && w.feed.continueBacktest
    requires RunTick(h, w, now, drainFuel) == TickCrashed(f)
    ensures ChainThenCrash(h, now, drainFuel, w, [], [], w, f)
  {
  }

  /** A pass from `w` to `w2` followed by a chain from `w2` that ends in
      a crash is a chain from `w` that ends in the same crash. */
  lemma CrashAfterPass<S(!new), P(!new)>(h: Handlers<S, P>, w: World<S, P>, now: Timestamp, drainFuel: nat,
                                         w2: World<S, P>, m: MarketEvent, t: seq<Event>, ms: seq<MarketEvent>,
                                         ts: seq<seq<Event>>, last: World<S, P>, f: Fault)
    requires BarFeed.Valid(w.feed) && w.queue == [] && w.feed.continueBacktest
    requires RunTick(h, w, now, drainFuel) == Ticked(w2, m, t)
    requires ChainThenCrash(h, now, drainFuel, w2, ms, ts, last, f)
    ensures ChainThenCrash(h, now, drainFuel, w, [m] + ms, [t] + ts, last, f)
  {
    ConsChain(h, now, drainFuel, w, w2, m, t, last, ms, ts);
  }

  /** `ConsRun` and `ConsChain` together. */
  lemma ConsFinished<S(!new), P(!new)>(h: Handlers<S, P>, now: Timestamp, drainFuel: nat, w: World<S, P>,
                                       w2: World<S, P>, m: MarketEvent, t: seq<Event>,
                                       w3: World<S, P>, ms: seq<MarketEvent>, ts: seq<seq<Event>>)
    requires BarFeed.Valid(w.feed) && w.queue == [] && w.feed.continueBacktest
    requires RunTick(h, w, now, drainFuel) == Ticked(w2, m, t)
    requires BarFeed.Valid(w2.feed) && FinishedChain(h, now, drainFuel, w2, Finished(w3, ms, ts))
    ensures FinishedChain(h, now, drainFuel, w, Finished(w3, [m] + ms, [t] + ts))
  {
    ConsRun(w, w2, m, t, w3, ms, ts);
    ConsChain(h, now, drainFuel, w, w2, m, t, w3, ms, ts);
  }

  /** `ms` and `ts` are the market events and traces of consecutive passes
      of the outer loop from `w`, each taken with the flag set, and `last`
      is the world the final pass leaves. */
  ghost predicate TickChain<S(!new), P(!new)>(h: Handlers<S, P>, now: Timestamp, drainFuel: nat, w: World<S, P>,
                                        ms: seq<MarketEvent>, ts: seq<seq<Event>>, last: World<S, P>)
    decreases |ms|
  {
    if |ms| == 0 then ts == [] && last == w
    else
      && |ts| > 0 && BarFeed.Valid(w.feed) && w.queue == [] && w.feed.continueBacktest
      && var r := RunTick(h, w, now, drainFuel);
         && r.Ticked? && r.market == ms[0] && r.trace == ts[0]
         && TickChain(h, now, drainFuel, r.world, ms[1..], ts[1..], last)
  }

  /** A pass from `w` to `w2` followed by a chain from `w2` is a chain from
      `w`. */
  lemma ConsChain<S(!new), P(!new)>(h: Handlers<S, P>, now: Timestamp, drainFuel: nat, w: World<S, P>,
                                    w2: World<S, P>, m: MarketEvent, t: seq<Event>,
                                    w3: World<S, P>, ms: seq<MarketEvent>, ts: seq<seq<Event>>)
    requires BarFeed.Valid(w.feed) && w.queue == [] && w.feed.continueBacktest
    requires RunTick(h, w, now, drainFuel) == Ticked(w2, m, t)
    requires TickChain(h, now, drainFuel, w2, ms, ts, w3)
    ensures TickChain(h, now, drainFuel, w, [m] + ms, [t] + ts, w3)
  {
    assert ([m] + ms)[1..] == ms && ([t] + ts)[1..] == ts;
  }

  /** One tick from `w` to `w2` followed by a finished run from `w2` is a
      finished run from `w`. */
  lemma {:induction false} ConsRun<S, P>(w: World<S, P>, w2: World<S, P>, m: MarketEvent, t: seq<Event>,
                      w3: World<S, P>, ms: seq<MarketEvent>, ts: seq<seq<Event>>)
    requires BarFeed.Valid(w.feed) && w.feed.continueBacktest && TickedFrom(w, w2, m, t)
    requires FinishedFrom(w2, Finished(w3, ms, ts))
    ensures FinishedFrom(w, Finished(w3, [m] + ms, [t] + ts))
  {
    assert Flatten([t] + ts) == t + Flatten(ts);
    CountTagAppend(t, Flatten(ts), "SIGNAL");
    CountTagAppend(t, Flatten(ts), "ORDER");
    CountTagAppend(t, Flatten(ts), "FILL");
    AdvanceFirstSymbol(w.feed);
    ConsTick(m, t, ms, ts);
  }

  /** Adding a tick that dispatches its market event first to ticks that
      each do the same. */
  lemma ConsTick(m: MarketEvent, t: seq<Event>, ms: seq<MarketEvent>, ts: seq<seq<Event>>)
    requires |t| > 0 && t[0] == Market(m) && |ms| == |ts|
    requires forall i :: 0 <= i < |ts| ==> |ts[i]| > 0 && ts[i][0] == Market(ms[i])
    ensures forall i :: 0 <= i < |[t] + ts| ==> |([t] + ts)[i]| > 0 && ([t] + ts)[i][0] == Market(([m] + ms)[i])
  {
    forall i | 0 <= i < |[t] + ts|
      ensures |([t] + ts)[i]| > 0 && ([t] + ts)[i][0] == Market(([m] + ms)[i])
    {
      if i > 0 {
        assert ([t] + ts)[i] == ts[i - 1] && ([m] + ms)[i] == ms[i - 1];
      }
    }
  }

  /** One update either takes a bar off the first symbol's iterator or, if
      none is left, clears `continue_backtest`. */
  lemma AdvanceFirstSymbol(f: BarFeed.Feed)
    requires BarFeed.Valid(f)
    ensures var g := BarFeed.Advance(f);
            |f.symbols| > 0 ==>
              var s0 := f.symbols[0];
              && g.symbols == f.symbols
              && (f.upcoming[s0] == [] ==> !g.continueBacktest)
              && (f.upcoming[s0] != [] ==> |g.upcoming[s0]| == |f.upcoming[s0]| - 1)
  {
    if |f.symbols| > 0 {
      var g := BarFeed.Advance(f);
      var s0 := f.symbols[0];
      assert s0 in f.symbols;
      assert |g.history[s0] + g.upcoming[s0]| == |f.history[s0] + f.upcoming[s0]|;
    }
  }

  /** With handlers that never raise and queue nothing and no pending
      stops, a tick whose update succeeds dispatches only its market event
      and leaves no stop pending. */
  lemma QuietTick<S(!new), P(!new)>(h: Handlers<S, P>, w: World<S, P>, now: Timestamp, drainFuel: nat)
    requires Silent(h) && Total(h)
    requires BarFeed.Valid(w.feed) && w.queue == [] && w.stops == [] && drainFuel >= 1
    requires BarFeed.UpdateBars(w.feed).Success?
    ensures var r := RunTick(h, w, now, drainFuel);
            && r.Ticked? && r.trace == [Market(r.market)] && r.world.stops == []
  {
    var tick := BarFeed.UpdateBars(w.feed).value;
    var w1 := w.(feed := tick.feed, queue := [Some(Market(tick.market))]);
    var popped := w1.(queue := w1.queue[1..]);
    assert popped == w1.(queue := []);
    var d := Dispatch(h, popped, Market(tick.market), now);
    var c := Execution.CheckStopOrders([], Market(tick.market));
    assert c.Success? && |c.value.pending| + |c.value.fired| == 0 by {
      assert |multiset(c.value.pending) + multiset(c.value.fired)| == 0;
    }
    assert Execution.StopFills(c.value.fired) == [];
    assert d.Success?;
    assert d.value.queue == [] + [] + [] + [];
    assert d.value.stops == [];
    assert DrainQueue(h, d.value, now, drainFuel - 1) == Drained(d.value, [], []);
    assert DrainQueue(h, w1, now, drainFuel) == Drained(d.value, [Market(tick.market)] + [], [] + []);
    assert [Market(tick.market)] + [] == [Market(tick.market)];
    assert RunTick(h, w, now, drainFuel) == Ticked(d.value, tick.market, [Market(tick.market)]);
  }

  /** A feed every tick of which will succeed until its bars run out: at
      least one symbol, the same number of bars left for every symbol, none
      of them missing a volume, and every symbol holding a bar after the
      next update. */
  ghost predicate QuietFeed(f: BarFeed.Feed)
  {
    && BarFeed.Valid(f) && |f.symbols| > 0
    && (forall s :: s in f.symbols ==>
          |f.upcoming[s]| == |f.upcoming[f.symbols[0]]| && |f.history[s]| + |f.upcoming[s]| > 0)
    && (forall s :: s in f.symbols ==> forall b :: b in f.upcoming[s] ==> b.volume.Some?)
  }

  /** The bars every symbol of a `QuietFeed` has left. */
  ghost function BarsLeft(f: BarFeed.Feed): nat
    requires QuietFeed(f)
  {
    |f.upcoming[f.symbols[0]]|
  }

  /** With handlers that never raise and queue nothing, no pending stops
      and a `QuietFeed`, a tick succeeds, leaves no stop pending, and either
      leaves a `QuietFeed` with one bar fewer per symbol or, when no bar was
      left, clears `continue_backtest`. */
  lemma QuietStep<S(!new), P(!new)>(h: Handlers<S, P>, w: World<S, P>, now: Timestamp, drainFuel: nat)
    requires Silent(h) && Total(h) && drainFuel >= 1
    requires w.queue == [] && w.stops == [] && w.feed.continueBacktest && QuietFeed(w.feed)
    ensures var r := RunTick(h, w, now, drainFuel);
            && r.Ticked? && r.world.queue == [] && r.world.stops == []
            && (r.world.feed.continueBacktest <==> BarsLeft(w.feed) > 0)
            && (r.world.feed.continueBacktest ==>
                  QuietFeed(r.world.feed) && BarsLeft(r.world.feed) == BarsLeft(w.feed) - 1)
  {
    QuietFeedAdvances(w.feed);
    QuietTick(h, w, now, drainFuel);
  }

  /** The bar side of `QuietStep`: the update succeeds, and it keeps a
      `QuietFeed` with one bar fewer per symbol unless none was left. */
  lemma QuietFeedAdvances(f: BarFeed.Feed)
    requires QuietFeed(f) && f.continueBacktest
    ensures BarFeed.UpdateBars(f).Success?
    ensures BarFeed.Advance(f).continueBacktest <==> BarsLeft(f) > 0
    ensures BarsLeft(f) > 0 ==>
              QuietFeed(BarFeed.Advance(f)) && BarsLeft(BarFeed.Advance(f)) == BarsLeft(f) - 1
  {
    var n := BarsLeft(f);
    assert f.symbols[0] in f.symbols;
    forall s | s in f.symbols
      ensures !BarFeed.NextLacksVolume(f, s) && BarFeed.Advance(f).history[s] != []
    {
      QuietSymbolAdvances(f, s);
    }
    if n == 0 {
      assert f.upcoming[f.symbols[0]] == [];
    } else {
      QuietFeedKept(f);
    }
  }

  /** One symbol of a `QuietFeed`: its next row carries a volume, it holds
      a bar after the update, and what remains of its bars all carry one. */
  lemma QuietSymbolAdvances(f: BarFeed.Feed, s: Symbol)
    requires QuietFeed(f) && s in f.symbols
    ensures !BarFeed.NextLacksVolume(f, s)
    ensures BarFeed.Advance(f).history[s] != []
    ensures BarFeed.Advance(f).upcoming[s] == BarFeed.DropNext(f.upcoming[s])
    ensures forall b :: b in BarFeed.Advance(f).upcoming[s] ==> b.volume.Some?
  {
    var g := BarFeed.Advance(f);
    if f.upcoming[s] != [] {
      assert f.upcoming[s][0] in f.upcoming[s];
    }
    BarFeed.AdvanceDropsNext(f, s);
    assert |g.history[s] + g.upcoming[s]| == |f.history[s] + f.upcoming[s]|;
  }

  /** With bars left, the updated feed is again a `QuietFeed`, one bar
      shorter per symbol. */
  lemma QuietFeedKept(f: BarFeed.Feed)
    requires QuietFeed(f) && f.continueBacktest && BarsLeft(f) > 0
    ensures QuietFeed(BarFeed.Advance(f)) && BarsLeft(BarFeed.Advance(f)) == BarsLeft(f) - 1
  {
    var n := BarsLeft(f);
    var g := BarFeed.AdvanceOneOfN(f, n);
    forall s | s in g.symbols
      ensures |g.history[s]| + |g.upcoming[s]| > 0
      ensures forall b :: b in g.upcoming[s] ==> b.volume.Some?
    {
      QuietSymbolAdvances(f, s);
    }
    assert g.symbols[0] in g.symbols;
  }

  /** The start of a quiet run, the condition of `RunPromise`'s last
      clause: handlers that never raise or queue, fuel for the market
      event, no pending stops, the flag set and a `QuietFeed`. */
  ghost predicate QuietStart<S(!new), P(!new)>(h: Handlers<S, P>, w: World<S, P>, drainFuel: nat)
  {
    Silent(h) && Total(h) && drainFuel >= 1 && w.stops == [] && w.feed.continueBacktest && QuietFeed(w.feed)
  }

  /** `QuietStep` under the condition `RunBacktest` states it with. */
  lemma QuietStepIf<S(!new), P(!new)>(h: Handlers<S, P>, w: World<S, P>, now: Timestamp, drainFuel: nat)
    requires BarFeed.Valid(w.feed) && w.queue == []
    ensures QuietStart(h, w, drainFuel) ==>
              var r := RunTick(h, w, now, drainFuel);
              && r.Ticked? && r.world.queue == []
              && (r.world.feed.continueBacktest <==> BarsLeft(w.feed) > 0)
              && (r.world.feed.continueBacktest ==>
                    QuietStart(h, r.world, drainFuel) && BarsLeft(r.world.feed) == BarsLeft(w.feed) - 1)
  {
    if QuietStart(h, w, drainFuel) {
      QuietStep(h, w, now, drainFuel);
    }
  }
}

=== FILE: bar_feed.dfy ===
/** The in-memory part of the packaged CSV data handler
    (`HistoricCSVDataHandler` in `mikasa/data.py`): per-symbol histories that
    grow by one bar per `update_bars`, the `continue_backtest` flag, the
    last-N-bars queries and the market event built after each update.

    Loading and reindexing the CSV files is abstracted: each symbol's series
    arrives as the sequence of bars the handler's generator would yield. */
module BarFeed {
  import opened Base
  import opened Events

  /** `history` is `latest_symbol_data`; `upcoming` is what is left of each
      symbol's row iterator. */
  datatype Feed = Feed(symbols: seq<Symbol>,
                       history: map<Symbol, seq<Bar>>,
                       upcoming: map<Symbol, seq<Bar>>,
                       continueBacktest: bool)

  datatype Tick = Tick(feed: Feed, market: MarketEvent)

  function SymbolSet(symbols: seq<Symbol>): set<Symbol>
  {
    set s | s in symbols
  }

  /** Every bar of `bars` stamped with symbol `s`. */
  predicate StampedWith(bars: seq<Bar>, s: Symbol)
  {
    forall b :: b in bars ==> b.symbol == s
  }

  /** The handler's invariant: one history and one iterator per listed
      symbol, no symbol listed twice, every bar stamped with its symbol. */
  predicate Valid(f: Feed)
  {
    && Distinct(f.symbols)
    && f.history.Keys == SymbolSet(f.symbols)
    && f.upcoming.Keys == SymbolSet(f.symbols)
    && (forall s :: s in f.history ==> StampedWith(f.history[s], s))
    && (forall s :: s in f.upcoming ==> StampedWith(f.upcoming[s], s))
  }

  /** The bars `_get_new_bar` yields for symbol `s`, each carrying `s`. */
  function Stamp(s: Symbol, bars: seq<Bar>): (r: seq<Bar>)
    ensures |r| == |bars|
    ensures StampedWith(r, s)
    ensures forall i :: 0 <= i < |r| ==> r[i] == bars[i].(symbol := s)
  {
    seq(|bars|, i requires 0 <= i < |bars| => bars[i].(symbol := s))
  }

  /** The constructor: empty histories, `continue_backtest` set, and one
      iterator per symbol over its rows as the reindexing pass left them. A
      repeated symbol makes that pass call `reindex` on an iterator, which
      raises `AttributeError`; the pass's own `ValueError` for rows that
      cannot be padded is `Reindex.ReindexAll`'s. */
  function Init(symbols: seq<Symbol>, loaded: map<Symbol, seq<Bar>>): (r: Result<Feed>)
    requires forall s :: s in symbols ==> s in loaded
    ensures r.Failure? <==> !Distinct(symbols)
    ensures r.Failure? ==> r.fault == AttributeError
    ensures r.Success? ==> Valid(r.value) && r.value.symbols == symbols
    ensures r.Success? ==> r.value.continueBacktest
    ensures r.Success? ==> forall s :: s in symbols ==>
              r.value.history[s] == [] && r.value.upcoming[s] == Stamp(s, loaded[s])
  {
    if !Distinct(symbols) then Failure(AttributeError)
    else
      Success(Feed(symbols,
                   map s | s in SymbolSet(symbols) :: [],
                   map s | s in SymbolSet(symbols) :: Stamp(s, loaded[s]),
                   true))
  }

  /** One symbol's history after an update: its next bar, if any, appended. */
  function TakeNext(h: seq<Bar>, u: seq<Bar>): (r: seq<Bar>)
    ensures h <= r && |r| == |h| + (if u == [] then 0 else 1)
    ensures r + DropNext(u) == h + u
    ensures forall b :: b in r ==> b in h || b in u
  {
    if u == [] then h
    else
      assert u == [u[0]] + u[1..];
      h + [u[0]]
  }

  /** One symbol's iterator after an update. */
  function DropNext(u: seq<Bar>): (r: seq<Bar>)
    ensures |r| == if u == [] then 0 else |u| - 1
    ensures forall b :: b in r ==> b in u
  {
    if u == [] then [] else u[1..]
  }

  /** The loop of `update_bars`: each symbol with a bar left moves it to its
      history; a symbol with none left clears `continue_backtest`. Histories
      only grow, by at most one bar, and no bar is lost or invented. */
  function Advance(f: Feed): (g: Feed)
    requires Valid(f)
    ensures Valid(g) && g.symbols == f.symbols
    ensures forall s :: s in f.symbols ==>
              && f.history[s] <= g.history[s]
              && g.history[s] + g.upcoming[s] == f.history[s] + f.upcoming[s]
              && |g.history[s]| == |f.history[s]| + (if f.upcoming[s] == [] then 0 else 1)
    ensures g.continueBacktest <==>
              f.continueBacktest && forall s :: s in f.symbols ==> f.upcoming[s] != []
  {
    var g := Feed(f.symbols,
                  map s | s in f.history :: TakeNext(f.history[s], f.upcoming[s]),
                  map s | s in f.upcoming :: DropNext(f.upcoming[s]),
                  f.continueBacktest && forall s :: s in f.symbols ==> f.upcoming[s] != []);
    assert g.history.Keys == f.history.Keys;
    assert g.upcoming.Keys == f.upcoming.Keys;
    g
  }

  /** Symbol `s`'s next row has no `volume` column: building its data point
      reads `b[1].volume`, which raises `AttributeError`. */
  predicate NextLacksVolume(f: Feed, s: Symbol)
    requires s in f.upcoming
  {
    f.upcoming[s] != [] && f.upcoming[s][0].volume.None?
  }

  /** `update_bars`: advance, then build one market event mapping every
      symbol to the last bar of its history. Reading a next row without a
      volume raises `AttributeError` inside the loop; after the loop,
      building the event raises `IndexError` when some history is still
      empty. */
  function UpdateBars(f: Feed): (r: Result<Tick>)
    requires Valid(f)
    ensures r.Failure? <==>
              || (exists s :: s in f.symbols && NextLacksVolume(f, s))
              || (exists s :: s in f.symbols && Advance(f).history[s] == [])
    ensures r.Failure? ==>
              (r.fault == AttributeError <==> exists s :: s in f.symbols && NextLacksVolume(f, s))
    ensures r.Failure? ==> r.fault == AttributeError || r.fault == IndexError
    ensures r.Success? ==> r.value.feed == Advance(f)
    ensures r.Success? ==> r.value.market.marketData.Keys == SymbolSet(f.symbols)
    ensures r.Success? ==> forall s :: s in f.symbols ==>
              |r.value.feed.history[s]| > 0 &&
              r.value.market.marketData[s] == Last(r.value.feed.history[s])
  {
    var g := Advance(f);
    if exists s :: s in f.symbols && NextLacksVolume(f, s) then Failure(AttributeError)
    else if exists s :: s in g.symbols && g.history[s] == [] then Failure(IndexError)
    else Success(Tick(g, MarketEvent(map s | s in SymbolSet(g.symbols) :: Last(g.history[s]))))
  }

  /** An update moves each symbol's next bar, if any, off its iterator. */
  lemma AdvanceDropsNext(f: Feed, s: Symbol)
    requires Valid(f) && s in f.symbols
    ensures Advance(f).upcoming[s] == DropNext(f.upcoming[s])
  {
    var g := Advance(f);
    assert |g.history[s] + g.upcoming[s]| == |f.history[s] + f.upcoming[s]|;
    if f.upcoming[s] != [] {
      assert g.history[s] == f.history[s] + [f.upcoming[s][0]] by {
        assert |g.history[s]| == |f.history[s]| + 1;
        assert f.history[s] <= g.history[s];
        assert g.history[s][|f.history[s]|] == (g.history[s] + g.upcoming[s])[|f.history[s]|];
      }
      assert g.upcoming[s] == (g.history[s] + g.upcoming[s])[|g.history[s]|..];
      assert (f.history[s] + f.upcoming[s])[|f.history[s]| + 1..] == f.upcoming[s][1..];
    }
  }

  /** `get_latest_bars(symbol, N)`, i.e. `history[-N:]`: `None` for an
      unknown symbol; the last `min(N, len)` bars for positive `N`; the whole
      history for `N = 0`; the history without its first `-N` bars for
      negative `N`. */
  function LatestBars(f: Feed, s: Symbol, n: int): (r: Option<seq<Bar>>)
    ensures r.None? <==> s !in f.history
    ensures r.Some? && n >= 1 ==>
              |r.value| == Min(n, |f.history[s]|) &&
              r.value == f.history[s][|f.history[s]| - |r.value|..]
    ensures r.Some? && n == 0 ==> r.value == f.history[s]
    ensures r.Some? && n < 0 ==> r.value == f.history[s][Min(-n, |f.history[s]|)..]
  {
    if s !in f.history then None else Some(SliceFrom(f.history[s], -n))
  }

  /** One attribute of every bar, in order; `KeyError` if some bar lacks it. */
  function Project(bars: seq<Bar>, field: Field): (r: Result<seq<Value>>)
    ensures r.Failure? <==> exists i :: 0 <= i < |bars| && FieldOf(bars[i], field).None?
    ensures r.Failure? ==> r.fault == KeyError
    ensures r.Success? ==> |r.value| == |bars|
    ensures r.Success? ==>
              forall i :: 0 <= i < |bars| ==> FieldOf(bars[i], field) == Some(r.value[i])
  {
    if |bars| == 0 then Success([])
    else match FieldOf(bars[0], field)
      case None => Failure(KeyError)
      case Some(v) =>
        match Project(bars[1..], field)
        case Failure(e) => Failure(e)
        case Success(vs) =>
          assert forall i :: 1 <= i < |bars| ==> bars[i] == bars[1..][i - 1];
          Success([v] + vs)
  }

  /** `get_latest_bars_values`: the bars of `get_latest_bars`, in the same
      order, projected to one attribute. Iterating the `None` of an unknown
      symbol raises `TypeError`. */
  function LatestBarsValues(f: Feed, s: Symbol, field: Field, n: int): (r: Result<seq<Value>>)
    ensures s !in f.history ==> r == Failure(TypeError)
    ensures s in f.history ==> r == Project(LatestBars(f, s, n).value, field)
    ensures r.Success? ==>
              var bars := LatestBars(f, s, n).value;
              |r.value| == |bars| &&
              forall i :: 0 <= i < |bars| ==> FieldOf(bars[i], field) == Some(r.value[i])
  {
    match LatestBars(f, s, n)
    case None => Failure(TypeError)
    case Some(bars) => Project(bars, field)
  }

  /** `update_bars` applied `k` times, ignoring the market events. */
  function AdvanceN(f: Feed, k: nat): (g: Feed)
    requires Valid(f)
    ensures Valid(g) && g.symbols == f.symbols
    decreases k
  {
    if k == 0 then f else AdvanceN(Advance(f), k - 1)
  }

  /** With `n` bars left for every symbol, the first `n` updates move all of
      them into the histories and leave `continue_backtest` set. */
  lemma {:induction false} ContinuesThroughLastBar(f: Feed, n: nat)
    requires Valid(f) && f.continueBacktest
    requires forall s :: s in f.symbols ==> |f.upcoming[s]| == n
    ensures AdvanceN(f, n).continueBacktest
    ensures forall s :: s in f.symbols ==> AdvanceN(f, n).upcoming[s] == []
    ensures forall s :: s in f.symbols ==>
              AdvanceN(f, n).history[s] == f.history[s] + f.upcoming[s]
    decreases n
  {
    if n > 0 {
      var g := AdvanceOneOfN(f, n);
      ContinuesThroughLastBar(g, n - 1);
    }
  }

  /** Only the update after the last bar clears `continue_backtest`. */
  lemma StopsOnePastLastBar(f: Feed, n: nat)
    requires Valid(f) && f.continueBacktest && |f.symbols| > 0
    requires forall s :: s in f.symbols ==> |f.upcoming[s]| == n
    ensures !Advance(AdvanceN(f, n)).continueBacktest
  {
    ContinuesThroughLastBar(f, n);
    var g := AdvanceN(f, n);
    assert g.upcoming[g.symbols[0]] == [];
  }

  /** One update of a feed with `n > 0` bars left for every symbol keeps
      `continue_backtest` and leaves `n - 1` bars for every symbol. */
  lemma AdvanceOneOfN(f: Feed, n: nat) returns (g: Feed)
    requires Valid(f) && f.continueBacktest && n > 0
    requires forall s :: s in f.symbols ==> |f.upcoming[s]| == n
    ensures g == Advance(f) && g.continueBacktest
    ensures forall s :: s in g.symbols ==> |g.upcoming[s]| == n - 1
    ensures forall s :: s in f.symbols ==>
              g.history[s] + g.upcoming[s] == f.history[s] + f.upcoming[s]
  {
    g := Advance(f);
    forall s | s in g.symbols ensures |g.upcoming[s]| == n - 1 {
      assert |g.history[s] + g.upcoming[s]| == |f.history[s] + f.upcoming[s]|;
    }
  }
}

=== FILE: base.dfy ===
/** Shared vocabulary of the backtester model: optional values, Python
    exceptions as failure values, the bar record and Python's `seq[start:]`. */
module Base {

  /** Python's `None`-or-value. */
  datatype Option<+T> = None | Some(value: T)

  /** The outcome of a Python call that may raise. */
  datatype Result<+T> = Success(value: T) | Failure(fault: Fault)

  /** The exception classes the modelled code can raise. */
  datatype Fault =
    | IndexError      // `[]` indexed with `[0]` or `[-1]`
    | KeyError        // missing dictionary key
    | TypeError       // comparing with, or subscripting, `None`
    | AttributeError  // reading an attribute the object does not have
    | ValueError      // pandas refusing to reindex an unordered index

  type Symbol = string

  /** Seconds since the epoch; `datetime` values are this number read in local time. */
  type Timestamp = int

  /** One synchronised observation of one symbol: the fixed-shape record behind
      the source's dictionary-backed `DataPoint`. Legacy bars carry no volume. */
  datatype Bar = Bar(symbol: Symbol, time: Timestamp,
                     open: real, high: real, low: real, close: real,
                     volume: Option<real>)

  /** The attribute names a strategy may request of a bar. */
  datatype Field = Datetime | Open | High | Low | Close | Volume

  datatype Value = Num(x: real) | Time(t: Timestamp)

  /** `getattr(bar, field)`: `None` when the bar's dictionary lacks the key,
      where the source raises `KeyError`. */
  function FieldOf(b: Bar, f: Field): (v: Option<Value>)
    ensures v.None? <==> (f == Volume && b.volume.None?)
    ensures f == Close ==> v == Some(Num(b.close))
    ensures f == Datetime ==> v == Some(Time(b.time))
  {
    match f
    case Datetime => Some(Time(b.time))
    case Open => Some(Num(b.open))
    case High => Some(Num(b.high))
    case Low => Some(Num(b.low))
    case Close => Some(Num(b.close))
    case Volume => if b.volume.Some? then Some(Num(b.volume.value)) else None
  }

  function Min(a: int, b: int): int { if a <= b then a else b }

  function Abs(x: real): (r: real)
    ensures r >= 0.0
    ensures r == x || r == -x
  {
    if x < 0.0 then -x else x
  }

  /** Python's `s[start:]`: a negative start counts from the end and both ends
      are clamped to the sequence. */
  function SliceFrom<T>(s: seq<T>, start: int): (r: seq<T>)
    ensures |r| <= |s|
    ensures r == s[|s| - |r|..]
  {
    if start >= 0 then s[Min(start, |s|)..]
    else if |s| + start <= 0 then s
    else s[|s| + start..]
  }

  /** Python's `s[-1]`. */
  function Last<T>(s: seq<T>): T
    requires |s| > 0
  {
    s[|s| - 1]
  }

  /** Whether no value occurs twice in `s`. */
  predicate Distinct<T(==)>(s: seq<T>)
  {
    forall i, j :: 0 <= i < j < |s| ==> s[i] != s[j]
  }
}

=== FILE: buy_and_hold.dfy ===
/** The buy-and-hold strategy (`BuyAndHoldStrategy` in `mikasa/strategy.py`):
    on each market event, every symbol that has a bar and has not been
    bought yet gets one LONG signal, and its `bought` flag is set for good. */
module BuyAndHold {
  import opened Base
  import opened Events
  import BarFeed

  /** `_calculate_initial_bought`: one flag per symbol, all clear. */
  function InitialBought(symbols: seq<Symbol>): (bought: map<Symbol, bool>)
    ensures bought.Keys == BarFeed.SymbolSet(symbols)
    ensures forall s :: s in bought ==> !bought[s]
  {
    map s | s in BarFeed.SymbolSet(symbols) :: false
  }

  /** `get_latest_bars(s, N=1)` is neither `None` nor empty. */
  predicate HasBars(feed: BarFeed.Feed, s: Symbol)
  {
    s in feed.history && feed.history[s] != []
  }

  lemma HasBarsIsLatestBarPresent(feed: BarFeed.Feed, s: Symbol)
    ensures HasBars(feed, s) <==>
              BarFeed.LatestBars(feed, s, 1).Some? && BarFeed.LatestBars(feed, s, 1).value != []
  {
  }

  /** The signal for the latest bar of a symbol. */
  function SignalFor(bar: Bar): (sig: SignalEvent)
    ensures sig.strategyId == Named("BUY_AND_HOLD") && sig.signalType == Long
    ensures sig.strength == 1.0 && sig.symbol == bar.symbol && sig.datetime == bar.time
  {
    SignalEvent(Named("BUY_AND_HOLD"), bar.symbol, bar.time, Long, 1.0)
  }

  /** The number of signals for symbol `s` in a stretch of the queue. */
  function Count(events: seq<Event>, s: Symbol): (n: nat)
    ensures n <= |events|
  {
    if |events| == 0 then 0
    else (if events[0].Signal? && events[0].signal.symbol == s then 1 else 0) + Count(events[1..], s)
  }

  lemma CountAppend(a: seq<Event>, b: seq<Event>)
    ensures forall s :: Count(a + b, s) == Count(a, s) + Count(b, s)
  {
    forall s ensures Count(a + b, s) == Count(a, s) + Count(b, s) {
      CountAppendOne(a, b, s);
    }
  }

  lemma CountAppendOne(a: seq<Event>, b: seq<Event>, s: Symbol)
    ensures Count(a + b, s) == Count(a, s) + Count(b, s)
  {
    if |a| > 0 {
      assert (a + b)[1..] == a[1..] + b;
      CountAppendOne(a[1..], b, s);
    } else {
      assert a + b == b;
    }
  }

  /** The symbols of the signals in a stretch of the queue, in order. */
  function SymbolsOf(events: seq<Event>): (ss: seq<Symbol>)
    ensures |ss| <= |events|
  {
    if |events| == 0 then []
    else (if events[0].Signal? then [events[0].signal.symbol] else []) + SymbolsOf(events[1..])
  }

  lemma SymbolsOfAppend(a: seq<Event>, b: seq<Event>)
    ensures SymbolsOf(a + b) == SymbolsOf(a) + SymbolsOf(b)
  {
    if |a| > 0 {
      assert (a + b)[1..] == a[1..] + b;
      SymbolsOfAppend(a[1..], b);
    } else {
      assert a + b == b;
    }
  }

  /** `a` can be obtained from `b` by deleting elements. */
  predicate Subsequence(a: seq<Symbol>, b: seq<Symbol>)
    decreases |b|
  {
    if |a| == 0 then true
    else if |b| == 0 then false
    else if a[0] == b[0] then Subsequence(a[1..], b[1..])
    else Subsequence(a, b[1..])
  }

  /** The symbols that get a signal on this event, in `symbol_list` order:
      those with a bar that have not been bought. */
  function Eligible(symbols: seq<Symbol>, bought: map<Symbol, bool>, feed: BarFeed.Feed): (e: seq<Symbol>)
    requires Distinct(symbols)
    requires forall s :: s in symbols ==> s in bought
    ensures forall s :: s in e <==> s in symbols && HasBars(feed, s) && !bought[s]
    ensures Subsequence(e, symbols)
    decreases |symbols|
  {
    if |symbols| == 0 then []
    else
      var rest := Eligible(symbols[1..], bought, feed);
      assert symbols[0] !in symbols[1..];
      if HasBars(feed, symbols[0]) && !bought[symbols[0]] then [symbols[0]] + rest
      else
        assert |rest| > 0 ==> rest[0] != symbols[0];
        rest
  }

  /** One pass of the loop body: a signal for the symbol's latest bar when
      it has one and has not been bought. */
  function SignalAt(s: Symbol, bought: map<Symbol, bool>, feed: BarFeed.Feed): (here: seq<Event>)
    requires BarFeed.Valid(feed) && s in bought
    ensures here != [] <==> HasBars(feed, s) && !bought[s]
    ensures here != [] ==>
              here == [Signal(SignalFor(Last(feed.history[s])))] && here[0].signal.symbol == s
    ensures here == [] || |here| == 1
  {
    match BarFeed.LatestBars(feed, s, 1)
    case Some(bars) =>
      if bars != [] && !bought[s] then
        var h := feed.history[s];
        assert bars == h[|h| - 1..] && bars[0] == h[|h| - 1];
        assert h[|h| - 1] in h;
        [Signal(SignalFor(bars[0]))]
      else []
    case None => []
  }

  datatype Signals = Signals(bought: map<Symbol, bool>, emitted: seq<Event>)

  /** The loop over `symbol_list`, one symbol at a time: exactly the flags
      of the symbols with a bar end up set. */
  function Sweep(symbols: seq<Symbol>, bought: map<Symbol, bool>, feed: BarFeed.Feed): (r: Signals)
    requires BarFeed.Valid(feed) && Distinct(symbols)
    requires forall s :: s in symbols ==> s in bought
    ensures r.bought.Keys == bought.Keys
    ensures forall s :: s in bought ==>
              r.bought[s] == (bought[s] || (s in symbols && HasBars(feed, s)))
    decreases |symbols|
  {
    if |symbols| == 0 then Signals(bought, [])
    else
      var s := symbols[0];
      var here := SignalAt(s, bought, feed);
      var next := if here != [] then bought[s := true] else bought;
      assert s !in symbols[1..];
      var rest := Sweep(symbols[1..], next, feed);
      Signals(rest.bought, here + rest.emitted)
  }

  /** The flags the rest of the loop sees after the first symbol: only the
      first symbol's flag can differ, and it is not visited again. */
  lemma SweepUnfold(symbols: seq<Symbol>, bought: map<Symbol, bool>, feed: BarFeed.Feed)
      returns (next: map<Symbol, bool>)
    requires BarFeed.Valid(feed) && Distinct(symbols) && |symbols| > 0
    requires forall s :: s in symbols ==> s in bought
    ensures next.Keys == bought.Keys
    ensures forall t :: t in symbols[1..] ==> t in next && next[t] == bought[t]
    ensures Distinct(symbols[1..])
    ensures Sweep(symbols, bought, feed).emitted ==
              SignalAt(symbols[0], bought, feed) + Sweep(symbols[1..], next, feed).emitted
  {
    var here := SignalAt(symbols[0], bought, feed);
    next := if here != [] then bought[symbols[0] := true] else bought;
    assert symbols[0] !in symbols[1..];
  }

  /** The signals are those of the eligible symbols, in `symbol_list` order. */
  lemma {:induction false} SweepEmitsEligible(symbols: seq<Symbol>, bought: map<Symbol, bool>, feed: BarFeed.Feed)
    requires BarFeed.Valid(feed) && Distinct(symbols)
    requires forall s :: s in symbols ==> s in bought
    ensures SymbolsOf(Sweep(symbols, bought, feed).emitted) == Eligible(symbols, bought, feed)
    decreases |symbols|
  {
    if |symbols| > 0 {
      var next := SweepUnfold(symbols, bought, feed);
      SweepEmitsEligible(symbols[1..], next, feed);
      EligibleAgrees(symbols[1..], next, bought, feed);
      var here := SignalAt(symbols[0], bought, feed);
      SymbolsOfAppend(here, Sweep(symbols[1..], next, feed).emitted);
      EligibleUnfold(symbols, bought, feed);
      assert SymbolsOf(here) == if here == [] then [] else [symbols[0]];
    }
  }

  lemma EligibleUnfold(symbols: seq<Symbol>, bought: map<Symbol, bool>, feed: BarFeed.Feed)
    requires Distinct(symbols) && |symbols| > 0
    requires forall s :: s in symbols ==> s in bought
    ensures Eligible(symbols, bought, feed) ==
              (if HasBars(feed, symbols[0]) && !bought[symbols[0]] then [symbols[0]] else [])
              + Eligible(symbols[1..], bought, feed)
  {
  }

  /** `Eligible` only reads the flags of the listed symbols. */
  lemma {:induction false} EligibleAgrees(symbols: seq<Symbol>, a: map<Symbol, bool>, b: map<Symbol, bool>,
                                          feed: BarFeed.Feed)
    requires Distinct(symbols)
    requires forall s :: s in symbols ==> s in a && s in b && a[s] == b[s]
    ensures Eligible(symbols, a, feed) == Eligible(symbols, b, feed)
    decreases |symbols|
  {
    if |symbols| > 0 {
      EligibleAgrees(symbols[1..], a, b, feed);
    }
  }

  /** Each signal is the buy-and-hold LONG for the latest bar of its symbol,
      and the symbol has a bar. */
  lemma {:induction false} SweepSignalsAreLatest(symbols: seq<Symbol>, bought: map<Symbol, bool>, feed: BarFeed.Feed)
    requires BarFeed.Valid(feed) && Distinct(symbols)
    requires forall s :: s in symbols ==> s in bought
    ensures var em := Sweep(symbols, bought, feed).emitted;
            forall i :: 0 <= i < |em| ==>
              && em[i].Signal?
              && HasBars(feed, em[i].signal.symbol)
              && em[i].signal == SignalFor(Last(feed.history[em[i].signal.symbol]))
    decreases |symbols|
  {
    if |symbols| > 0 {
      var next := SweepUnfold(symbols, bought, feed);
      SweepSignalsAreLatest(symbols[1..], next, feed);
    }
  }

  /** Each eligible symbol gets exactly one signal and every other symbol
      none. */
  lemma {:induction false} SweepCounts(symbols: seq<Symbol>, bought: map<Symbol, bool>, feed: BarFeed.Feed)
    requires BarFeed.Valid(feed) && Distinct(symbols)
    requires forall s :: s in symbols ==> s in bought
    ensures forall s :: Count(Sweep(symbols, bought, feed).emitted, s) ==
              if s in symbols && HasBars(feed, s) && !bought[s] then 1 else 0
    decreases |symbols|
  {
    if |symbols| > 0 {
      var next := SweepUnfold(symbols, bought, feed);
      SweepCounts(symbols[1..], next, feed);
      CountAppend(SignalAt(symbols[0], bought, feed), Sweep(symbols[1..], next, feed).emitted);
      assert forall s :: s in symbols <==> s == symbols[0] || s in symbols[1..];
    }
  }

  /** `calculate_signals`: nothing for any event but a market event. On a
      market event, exactly the symbols with a bar and a clear flag get one
      LONG signal each, in `symbol_list` order, for their latest bar; their
      flags are set and no flag is ever cleared. */
  function CalculateSignals(bought: map<Symbol, bool>, feed: BarFeed.Feed, e: Event): (r: Signals)
    requires BarFeed.Valid(feed) && bought.Keys == BarFeed.SymbolSet(feed.symbols)
    ensures !e.Market? ==> r == Signals(bought, [])
    ensures r.bought.Keys == bought.Keys
    ensures e.Market? ==> forall s :: s in bought ==>
              r.bought[s] == (bought[s] || HasBars(feed, s))
    ensures e.Market? ==> SymbolsOf(r.emitted) == Eligible(feed.symbols, bought, feed)
    ensures forall i :: 0 <= i < |r.emitted| ==>
              && r.emitted[i].Signal?
              && HasBars(feed, r.emitted[i].signal.symbol)
              && r.emitted[i].signal == SignalFor(Last(feed.history[r.emitted[i].signal.symbol]))
    ensures e.Market? ==> forall s ::
              Count(r.emitted, s) == (if s in bought && HasBars(feed, s) && !bought[s] then 1 else 0)
  {
    if e.Market? then
      SweepEmitsEligible(feed.symbols, bought, feed);
      SweepSignalsAreLatest(feed.symbols, bought, feed);
      SweepCounts(feed.symbols, bought, feed);
      Sweep(feed.symbols, bought, feed)
    else Signals(bought, [])
  }

  /** The strategy over a run: one market event per feed snapshot, the
      signals of all of them in order. */
  function Run(bought: map<Symbol, bool>, feeds: seq<BarFeed.Feed>): (r: Signals)
    requires forall i :: 0 <= i < |feeds| ==>
               BarFeed.Valid(feeds[i]) && bought.Keys == BarFeed.SymbolSet(feeds[i].symbols)
    ensures r.bought.Keys == bought.Keys
    decreases |feeds|
  {
    if |feeds| == 0 then Signals(bought, [])
    else
      var first := CalculateSignals(bought, feeds[0], Market(MarketEvent(map[])));
      var rest := Run(first.bought, feeds[1..]);
      Signals(rest.bought, first.emitted + rest.emitted)
  }

  /** Over a whole run each symbol gets at most one signal, none if it was
      already bought, and a symbol that got one ends the run bought. */
  lemma {:induction false} AtMostOneSignalPerSymbol(bought: map<Symbol, bool>, feeds: seq<BarFeed.Feed>, s: Symbol)
    requires forall i :: 0 <= i < |feeds| ==>
               BarFeed.Valid(feeds[i]) && bought.Keys == BarFeed.SymbolSet(feeds[i].symbols)
    requires s in bought
    ensures Count(Run(bought, feeds).emitted, s) <= if bought[s] then 0 else 1
    ensures bought[s] ==> Run(bought, feeds).bought[s]
    ensures Count(Run(bought, feeds).emitted, s) == 1 ==> Run(bought, feeds).bought[s]
    decreases |feeds|
  {
    if |feeds| > 0 {
      var first := CalculateSignals(bought, feeds[0], Market(MarketEvent(map[])));
      AtMostOneSignalPerSymbol(first.bought, feeds[1..], s);
      CountAppend(first.emitted, Run(first.bought, feeds[1..]).emitted);
    }
  }

  /** A run that starts from the initial flags emits at most one signal per
      symbol. */
  lemma OneSignalPerSymbolFromStart(feeds: seq<BarFeed.Feed>, symbols: seq<Symbol>, s: Symbol)
    requires forall i :: 0 <= i < |feeds| ==> BarFeed.Valid(feeds[i]) && feeds[i].symbols == symbols
    ensures Count(Run(InitialBought(symbols), feeds).emitted, s) <= 1
  {
    if s in symbols {
      AtMostOneSignalPerSymbol(InitialBought(symbols), feeds, s);
    } else {
      NoSignalForUnlisted(InitialBought(symbols), feeds, s);
    }
  }

  /** A symbol outside `symbol_list` never gets a signal. */
  lemma {:induction false} NoSignalForUnlisted(bought: map<Symbol, bool>, feeds: seq<BarFeed.Feed>, s: Symbol)
    requires forall i :: 0 <= i < |feeds| ==>
               BarFeed.Valid(feeds[i]) && bought.Keys == BarFeed.SymbolSet(feeds[i].symbols)
    requires s !in bought
    ensures Count(Run(bought, feeds).emitted, s) == 0
    decreases |feeds|
  {
    if |feeds| > 0 {
      var first := CalculateSignals(bought, feeds[0], Market(MarketEvent(map[])));
      NoSignalForUnlisted(first.bought, feeds[1..], s);
      CountAppend(first.emitted, Run(first.bought, feeds[1..]).emitted);
    }
  }
}

=== FILE: events.dfy ===
/** The packaged event records (`mikasa/event.py`): the four event kinds that
    travel through the backtest queue, and the commission default of a fill. */
module Events {
  import opened Base

  datatype SignalType = Long | Short | Exit

  datatype Direction = Buy | Sell

  /** `'MKT'`, `'STP'`, or any other order-type string, which the execution
      handler ignores. */
  datatype OrderType = Mkt | Stp | OtherOrderType(name: string)

  /** Strategy identifiers are strings (`'BUY_AND_HOLD'`) or integers (`1`). */
  datatype StrategyId = Named(name: string) | Numbered(n: int)

  datatype MarketEvent = MarketEvent(marketData: map<Symbol, Bar>)

  datatype SignalEvent = SignalEvent(strategyId: StrategyId, symbol: Symbol,
                                     datetime: Timestamp, signalType: SignalType,
                                     strength: real)

  /** `price` is the stop price of an `STP` order and `None` by default. */
  datatype OrderEvent = OrderEvent(symbol: Symbol, orderType: OrderType,
                                   quantity: real, direction: Direction,
                                   price: Option<real>)

  /** `price` is `None` for a market fill, to be priced by the portfolio. */
  datatype FillEvent = FillEvent(timeindex: Timestamp, symbol: Symbol,
                                 exchange: string, quantity: real,
                                 direction: Direction, price: Option<real>,
                                 commission: real)

  datatype Event =
    | Market(market: MarketEvent)
    | Signal(signal: SignalEvent)
    | Order(order: OrderEvent)
    | Fill(fill: FillEvent)

  /** The `type` attribute every event carries. */
  function TypeTag(e: Event): (tag: string)
    ensures e.Market? <==> tag == "MARKET"
    ensures e.Signal? <==> tag == "SIGNAL"
    ensures e.Order? <==> tag == "ORDER"
    ensures e.Fill? <==> tag == "FILL"
  {
    match e
    case Market(_) => "MARKET"
    case Signal(_) => "SIGNAL"
    case Order(_) => "ORDER"
    case Fill(_) => "FILL"
  }

  /** The commission charged when a fill is built without one. */
  const FlatCommission: real := 0.002

  /** `OrderEvent(symbol, order_type, quantity, direction)` with the price
      argument left out. */
  function NewOrder(symbol: Symbol, orderType: OrderType, quantity: real,
                    direction: Direction): (o: OrderEvent)
    ensures o.price == None
    ensures o.symbol == symbol && o.orderType == orderType
    ensures o.quantity == quantity && o.direction == direction
  {
    OrderEvent(symbol, orderType, quantity, direction, None)
  }

  /** `FillEvent(...)`: every argument is kept as given, and a missing
      commission becomes the flat rate whatever the quantity. */
  function NewFill(timeindex: Timestamp, symbol: Symbol, exchange: string,
                   quantity: real, direction: Direction, price: Option<real>,
                   commission: Option<real>): (f: FillEvent)
    ensures f.timeindex == timeindex && f.symbol == symbol && f.exchange == exchange
    ensures f.quantity == quantity && f.direction == direction && f.price == price
    ensures commission.None? ==> f.commission == 0.002
    ensures commission.Some? ==> f.commission == commission.value
  {
    var c := if commission.Some? then commission.value else FlatCommission;
    FillEvent(timeindex, symbol, exchange, quantity, direction, price, c)
  }
}

=== FILE: execution.dfy ===
/** The packaged simulated execution handler (`SimulatedExecutionHandler` in
    `mikasa/execution.py`): market orders are filled at once through the
    event queue, stop orders are parked and checked against every market
    event, and a triggered stop is filled at its stop price and handed
    straight to the portfolio. */
module Execution {
  import opened Base
  import opened Events
  import opened StopScan

  /** A parked `STP` order together with the wall-clock time `execute_order`
      stamped on it. */
  datatype PendingStop = PendingStop(order: OrderEvent, submitted: Timestamp)

  /** The venue name every simulated fill carries. */
  const Venue: string := "BACKTEST"

  /** The pending list a new handler starts with. */
  const NoStops: seq<PendingStop> := []

  /** What `execute_order` leaves behind: the pending stops and the events it
      put on the queue. */
  datatype Executed = Executed(pending: seq<PendingStop>, enqueued: seq<Event>)

  /** The unpriced fill of a market order, stamped with the wall clock. */
  function MarketFill(o: OrderEvent, now: Timestamp): (f: FillEvent)
    ensures f.symbol == o.symbol && f.quantity == o.quantity && f.direction == o.direction
    ensures f.exchange == "BACKTEST" && f.price == None && f.timeindex == now
    ensures f.commission == 0.002
  {
    NewFill(now, o.symbol, Venue, o.quantity, o.direction, None, None)
  }

  /** `execute_order`: an `MKT` order puts exactly one fill on the queue and
      leaves the pending list alone; an `STP` order is parked with the
      submission time and nothing is queued; any other event or order type
      changes nothing. */
  function ExecuteOrder(pending: seq<PendingStop>, e: Event, now: Timestamp): (r: Executed)
    ensures !e.Order? ==> r == Executed(pending, [])
    ensures e.Order? && e.order.orderType.Mkt? ==>
              && r.pending == pending
              && |r.enqueued| == 1 && r.enqueued[0].Fill?
              && r.enqueued[0].fill.symbol == e.order.symbol
              && r.enqueued[0].fill.quantity == e.order.quantity
              && r.enqueued[0].fill.direction == e.order.direction
              && r.enqueued[0].fill.exchange == "BACKTEST"
              && r.enqueued[0].fill.price == None
              && r.enqueued[0].fill.timeindex == now
              && r.enqueued[0].fill.commission == 0.002
    ensures e.Order? && e.order.orderType.Stp? ==>
              r.pending == pending + [PendingStop(e.order, now)] && r.enqueued == []
    ensures e.Order? && e.order.orderType.OtherOrderType? ==> r == Executed(pending, [])
  {
    match e
    case Order(o) =>
      (match o.orderType
       case Mkt => Executed(pending, [Fill(MarketFill(o, now))])
       case Stp => Executed(pending + [PendingStop(o, now)], [])
       case OtherOrderType(_) => Executed(pending, []))
    case _ => Executed(pending, [])
  }

  /** The trigger rule: a BUY stop fires when the close rises strictly above
      the stop price, a SELL stop when it falls strictly below. */
  predicate Fires(d: Direction, close: real, stop: real)
  {
    match d
    case Buy => close > stop
    case Sell => close < stop
  }

  /** The stop is compared on this market event: its symbol has a bar. */
  predicate Examined(p: PendingStop, md: map<Symbol, Bar>)
  {
    p.order.symbol in md
  }

  /** Comparing a close with a `None` stop price raises `TypeError`. */
  predicate Unpriced(p: PendingStop, md: map<Symbol, Bar>)
  {
    Examined(p, md) && p.order.price.None?
  }

  predicate Triggered(p: PendingStop, md: map<Symbol, Bar>)
  {
    && Examined(p, md)
    && p.order.price.Some?
    && Fires(p.order.direction, md[p.order.symbol].close, p.order.price.value)
  }

  /** The fill of a triggered stop: the order's symbol, quantity and
      direction at its stop price, stamped with its submission time. */
  function StopFill(p: PendingStop): (f: FillEvent)
    ensures f.timeindex == p.submitted && f.symbol == p.order.symbol
    ensures f.quantity == p.order.quantity && f.direction == p.order.direction
    ensures f.price == p.order.price && f.exchange == "BACKTEST"
    ensures f.commission == 0.002
  {
    NewFill(p.submitted, p.order.symbol, Venue, p.order.quantity, p.order.direction,
            p.order.price, None)
  }

  /** The fills of the given stops, in order. */
  function StopFills(ps: seq<PendingStop>): (fs: seq<FillEvent>)
    ensures |fs| == |ps|
    ensures forall i :: 0 <= i < |ps| ==> fs[i] == StopFill(ps[i])
  {
    seq(|ps|, i requires 0 <= i < |ps| => StopFill(ps[i]))
  }

  /** How `check_stop_orders` judges one pending stop on a market event: a
      stop whose symbol has no bar is not looked at; comparing a close with a
      missing stop price raises `TypeError`. */
  function Judge(p: PendingStop, md: map<Symbol, Bar>): (v: Verdict)
    ensures v == Fire <==> Triggered(p, md)
    ensures v.Raise? <==> Unpriced(p, md)
    ensures v.Raise? ==> v.fault == TypeError
  {
    if !Examined(p, md) then Pass
    else if p.order.price.None? then Raise(TypeError)
    else if Fires(p.order.direction, md[p.order.symbol].close, p.order.price.value) then Fire
    else Pass
  }

  function JudgeAt(md: map<Symbol, Bar>): PendingStop -> Verdict
  {
    p => Judge(p, md)
  }

  /** `check_stop_orders`: nothing happens unless the event is a market
      event. Otherwise the pending list is walked once, skipping the stop
      after each triggered one: every stop ends up pending or filled, only
      triggered stops are filled, every untriggered stop stays, and the call
      raises `TypeError` exactly on reaching a stop with no price whose
      symbol has a bar. */
  function CheckStopOrders(pending: seq<PendingStop>, e: Event): (r: Result<Outcome<PendingStop>>)
    ensures !e.Market? ==> r == Success(Outcome(pending, []))
    ensures e.Market? ==> r == Walk(pending, JudgeAt(e.market.marketData))
    ensures r.Success? ==> multiset(r.value.pending) + multiset(r.value.fired) == multiset(pending)
    ensures e.Market? && r.Success? ==>
              forall p :: p in r.value.fired ==> Triggered(p, e.market.marketData)
    ensures e.Market? && r.Success? ==>
              forall p :: p in pending && !Triggered(p, e.market.marketData) ==> p in r.value.pending
    ensures r.Failure? ==>
              && e.Market? && r.fault == TypeError
              && exists p :: p in pending && Unpriced(p, e.market.marketData)
    ensures e.Market? && (forall p :: p in pending ==> !Unpriced(p, e.market.marketData)) ==> r.Success?
  {
    match e
    case Market(m) =>
      var r := CheckAll(pending, JudgeAt(m.marketData));
      assert forall p :: JudgeAt(m.marketData)(p) == Judge(p, m.marketData);
      r
    case _ => Success(Outcome(pending, []))
  }

  /** A stop whose symbol has no bar on this event is neither filled nor
      dropped. */
  lemma UnexaminedStopStays(pending: seq<PendingStop>, e: Event, p: PendingStop)
    requires e.Market? && p in pending && !Examined(p, e.market.marketData)
    requires CheckStopOrders(pending, e).Success?
    ensures p in CheckStopOrders(pending, e).value.pending
    ensures p !in CheckStopOrders(pending, e).value.fired
  {
  }

  /** The trigger boundary for a single parked stop: it is filled on this
      event exactly when the close is strictly beyond its stop price in its
      direction, and then at the stop price itself. */
  lemma SingleStopBoundary(p: PendingStop, md: map<Symbol, Bar>, stop: real)
    requires p.order.symbol in md && p.order.price == Some(stop)
    ensures CheckStopOrders([p], Market(MarketEvent(md))).Success?
    ensures var c := CheckStopOrders([p], Market(MarketEvent(md))).value;
            var close := md[p.order.symbol].close;
            && (c.fired == [p] <==> (p.order.direction == Buy && close > stop) ||
                                     (p.order.direction == Sell && close < stop))
            && (c.fired == [] <==> c.pending == [p])
            && (c.fired == [p] ==> StopFill(p).price == Some(stop))
  {
    assert [p][1..] == [];
    assert Walk([p][1..], JudgeAt(md)) == Success(Outcome([], []));
    assert [p] + [] == [p];
  }

  /** The stop right after a triggered one is passed over on that event:
      two BUY stops at 1.0 and a close of 2.0 fill only the first. */
  lemma SecondTriggeredStopWaits(a: PendingStop, b: PendingStop, md: map<Symbol, Bar>)
    requires a.order.symbol == b.order.symbol == "X" && "X" in md && md["X"].close == 2.0
    requires a.order.direction == b.order.direction == Buy
    requires a.order.price == b.order.price == Some(1.0)
    ensures Triggered(b, md)
    ensures CheckStopOrders([a, b], Market(MarketEvent(md))) == Success(Outcome([b], [a]))
  {
    assert [a, b][2..] == [];
    assert Walk([a, b][2..], JudgeAt(md)) == Success(Outcome([], []));
    assert [b] + [] == [b] && [a] + [] == [a];
    assert Walk([a, b], JudgeAt(md)) == Success(Outcome([b], [a]));
  }
}

=== FILE: intraday.dfy ===
/** The signal state machine of the intraday mean-reversion pairs strategy
    (`IntradayOLSMRStrategy.calculate_xy_signals` in
    `examples/intraday_mr.py`). Two flags remember whether the pair is held
    long or short; the latest z-score of the spread either opens a position
    (beyond the high threshold) or closes one (inside the low band). The
    z-score and the hedge ratio come from an OLS fit that is not part of
    this model and are taken as inputs. */
module Intraday {
  import opened Base
  import opened Events

  /** The pair: `y` is the first symbol, `x` the second. */
  const PairY: Symbol := "BTC_ETC"
  const PairX: Symbol := "BTC_LTC"

  /** The strategy id the signals carry. */
  const PairStrategy: StrategyId := Numbered(1)

  datatype Flags = Flags(longMarket: bool, shortMarket: bool)

  /** The flags after a call and the `(y_signal, x_signal)` it returns. */
  datatype XY = XY(flags: Flags, y: Option<SignalEvent>, x: Option<SignalEvent>)

  function Sig(s: Symbol, dt: Timestamp, t: SignalType, strength: real): SignalEvent
  {
    SignalEvent(PairStrategy, s, dt, t, strength)
  }

  /** The first test: below minus the high threshold and not long. */
  function EnterLong(r: XY, z: real, high: real, hr: real, dt: Timestamp): XY
  {
    if z <= -high && !r.flags.longMarket then
      XY(r.flags.(longMarket := true), Some(Sig(PairY, dt, Long, 1.0)), Some(Sig(PairX, dt, Short, hr)))
    else r
  }

  /** The second test: inside the low band while long. */
  function ExitLong(r: XY, z: real, low: real, dt: Timestamp): XY
  {
    if Abs(z) <= low && r.flags.longMarket then
      XY(r.flags.(longMarket := false), Some(Sig(PairY, dt, Exit, 1.0)), Some(Sig(PairX, dt, Exit, 1.0)))
    else r
  }

  /** The third test: above the high threshold and not short. */
  function EnterShort(r: XY, z: real, high: real, hr: real, dt: Timestamp): XY
  {
    if z >= high && !r.flags.shortMarket then
      XY(r.flags.(shortMarket := true), Some(Sig(PairY, dt, Short, 1.0)), Some(Sig(PairX, dt, Long, hr)))
    else r
  }

  /** The fourth test: inside the low band while short. */
  function ExitShort(r: XY, z: real, low: real, dt: Timestamp): XY
  {
    if Abs(z) <= low && r.flags.shortMarket then
      XY(r.flags.(shortMarket := false), Some(Sig(PairY, dt, Exit, 1.0)), Some(Sig(PairX, dt, Exit, 1.0)))
    else r
  }

  /** `calculate_xy_signals`: the four tests run one after another on the
      updated flags, so a later test that matches replaces the signals of an
      earlier one. Both legs are produced together or not at all, always for
      the pair in order with the strategy's id and creation time; the `x`
      leg's strength is never negative. A flag is set only beyond the high
      threshold and outside the low band, and a set flag is cleared only
      inside the low band. */
  function XYSignals(flags: Flags, z: real, low: real, high: real, hedge: real, dt: Timestamp): (r: XY)
    ensures r.y.Some? <==> r.x.Some?
    ensures r.y.Some? ==> r.y.value.symbol == PairY && r.y.value.strategyId == PairStrategy &&
                          r.y.value.datetime == dt && r.y.value.strength == 1.0
    ensures r.x.Some? ==> r.x.value.symbol == PairX && r.x.value.strategyId == PairStrategy &&
                          r.x.value.datetime == dt && r.x.value.strength >= 0.0
    ensures r.flags.longMarket ==> (flags.longMarket || z <= -high) && !(Abs(z) <= low)
    ensures r.flags.shortMarket ==> (flags.shortMarket || z >= high) && !(Abs(z) <= low)
    ensures flags.longMarket && !r.flags.longMarket ==> Abs(z) <= low
    ensures flags.shortMarket && !r.flags.shortMarket ==> Abs(z) <= low
  {
    var hr := Abs(hedge);
    var r0 := XY(flags, None, None);
    var r1 := EnterLong(r0, z, high, hr, dt);
    var r2 := ExitLong(r1, z, low, dt);
    var r3 := EnterShort(r2, z, high, hr, dt);
    ExitShort(r3, z, low, dt)
  }

  /** When no test matches, nothing is returned and the flags are kept. */
  lemma NoBranchKeepsFlags(flags: Flags, z: real, low: real, high: real, hedge: real, dt: Timestamp)
    requires !(z <= -high && !flags.longMarket) && !(Abs(z) <= low && flags.longMarket)
    requires !(z >= high && !flags.shortMarket) && !(Abs(z) <= low && flags.shortMarket)
    ensures XYSignals(flags, z, low, high, hedge, dt) == XY(flags, None, None)
  {
  }

  /** With the thresholds ordered as the defaults are (`0 <= low < high`) at
      most one kind of transition happens per call. Opening a long: `y` is
      bought and `x` sold in the hedge ratio's size. */
  lemma OpensLong(flags: Flags, z: real, low: real, high: real, hedge: real, dt: Timestamp)
    requires 0.0 <= low < high && z <= -high && !flags.longMarket
    ensures XYSignals(flags, z, low, high, hedge, dt) ==
              XY(flags.(longMarket := true),
                 Some(Sig(PairY, dt, Long, 1.0)), Some(Sig(PairX, dt, Short, Abs(hedge))))
  {
  }

  /** Opening a short: `y` is sold and `x` bought in the hedge ratio's size. */
  lemma OpensShort(flags: Flags, z: real, low: real, high: real, hedge: real, dt: Timestamp)
    requires 0.0 <= low < high && z >= high && !flags.shortMarket
    ensures XYSignals(flags, z, low, high, hedge, dt) ==
              XY(flags.(shortMarket := true),
                 Some(Sig(PairY, dt, Short, 1.0)), Some(Sig(PairX, dt, Long, Abs(hedge))))
  {
  }

  /** Inside the low band every held side is closed, with EXIT for both legs. */
  lemma ClosesInsideLowBand(flags: Flags, z: real, low: real, high: real, hedge: real, dt: Timestamp)
    requires 0.0 <= low < high && Abs(z) <= low && (flags.longMarket || flags.shortMarket)
    ensures XYSignals(flags, z, low, high, hedge, dt) ==
              XY(Flags(false, false), Some(Sig(PairY, dt, Exit, 1.0)), Some(Sig(PairX, dt, Exit, 1.0)))
  {
  }

  /** The tests are not exclusive when the low band reaches the high
      threshold: whenever a z-score both opens a long (`z <= -high` while
      not long) and lies inside the low band, the later tests close what
      the earlier ones opened in the same call. Only the EXIT signals are
      returned and both flags end clear, whatever the short flag was. */
  lemma LaterBranchOverwrites(flags: Flags, z: real, low: real, high: real, hedge: real, dt: Timestamp)
    requires !flags.longMarket && z <= -high && Abs(z) <= low
    ensures XYSignals(flags, z, low, high, hedge, dt) ==
              XY(Flags(false, false), Some(Sig(PairY, dt, Exit, 1.0)), Some(Sig(PairX, dt, Exit, 1.0)))
  {
  }

  /** The enqueue rule of `calculate_signals_for_pairs`: both legs, `y`
      first, or nothing. */
  function Enqueued(r: XY): (q: seq<Event>)
    ensures q == [] || |q| == 2
    ensures q != [] <==> r.y.Some? && r.x.Some?
    ensures q != [] ==> q[0] == Signal(r.y.value) && q[1] == Signal(r.x.value)
  {
    if r.y.Some? && r.x.Some? then [Signal(r.y.value), Signal(r.x.value)] else []
  }

  /** A call puts the pair's two signals on the queue exactly when it
      returns any signal at all. */
  lemma EnqueuesBothOrNothing(flags: Flags, z: real, low: real, high: real, hedge: real, dt: Timestamp)
    ensures var r := XYSignals(flags, z, low, high, hedge, dt);
            (Enqueued(r) == []) <==> r.y.None?
    ensures var q := Enqueued(XYSignals(flags, z, low, high, hedge, dt));
            q != [] ==> q[0].signal.symbol == PairY && q[1].signal.symbol == PairX
  {
  }
}

=== FILE: legacy_data.dfy ===
/** The standalone CSV data handler (`data.py`): the packaged handler's
    per-symbol histories plus an `index` counter of updates, a single-bar
    query, and a market event that carries no data. */
module LegacyData {
  import opened Base
  import opened LegacyEvents
  import BarFeed

  datatype LegacyFeed = LegacyFeed(feed: BarFeed.Feed, index: nat)

  /** The rows as the standalone generator yields them: its data points
      carry no `volume` key. */
  function WithoutVolume(loaded: map<Symbol, seq<Bar>>): (r: map<Symbol, seq<Bar>>)
    ensures r.Keys == loaded.Keys
    ensures forall s :: s in r ==> |r[s]| == |loaded[s]|
    ensures forall s :: s in r ==>
              forall i :: 0 <= i < |r[s]| ==> r[s][i] == loaded[s][i].(volume := None)
  {
    map s | s in loaded :: seq(|loaded[s]|, i requires 0 <= i < |loaded[s]| => loaded[s][i].(volume := None))
  }

  /** No bar the handler holds or will yield has a volume. */
  predicate VolumeFree(f: BarFeed.Feed)
  {
    && (forall s :: s in f.history ==> forall b :: b in f.history[s] ==> b.volume.None?)
    && (forall s :: s in f.upcoming ==> forall b :: b in f.upcoming[s] ==> b.volume.None?)
  }

  /** The constructor: the packaged handler's initial state over rows
      without a volume, and `index = 0`. */
  function Init(symbols: seq<Symbol>, loaded: map<Symbol, seq<Bar>>): (r: Result<LegacyFeed>)
    requires forall s :: s in symbols ==> s in loaded
    ensures r.Failure? <==> !Distinct(symbols)
    ensures r.Failure? ==> r.fault == AttributeError
    ensures r.Success? ==> r.value.index == 0 && r.value.feed.continueBacktest
    ensures r.Success? ==> BarFeed.Valid(r.value.feed) && r.value.feed.symbols == symbols
    ensures r.Success? ==> VolumeFree(r.value.feed)
    ensures r.Success? ==> forall s :: s in symbols ==>
              && r.value.feed.history[s] == []
              && |r.value.feed.upcoming[s]| == |loaded[s]|
              && forall i :: 0 <= i < |loaded[s]| ==>
                   r.value.feed.upcoming[s][i] == loaded[s][i].(symbol := s, volume := None)
  {
    var unvolumed := WithoutVolume(loaded);
    match BarFeed.Init(symbols, unvolumed)
    case Failure(e) => Failure(e)
    case Success(f) =>
      assert forall s :: s in f.upcoming ==> f.upcoming[s] == BarFeed.Stamp(s, unvolumed[s]);
      Success(LegacyFeed(f, 0))
  }

  datatype LegacyTick = LegacyTick(state: LegacyFeed, event: LegacyEvent)

  /** `update_bars`: the packaged loop, then `index += 1`, then one market
      event with no payload. Unlike the packaged handler it cannot fail. */
  function UpdateBars(lf: LegacyFeed): (r: LegacyTick)
    requires BarFeed.Valid(lf.feed)
    ensures r.state.index == lf.index + 1
    ensures r.event == LegacyMarket
    ensures r.state.feed == BarFeed.Advance(lf.feed)
    ensures VolumeFree(lf.feed) ==> VolumeFree(r.state.feed)
  {
    LegacyTick(LegacyFeed(BarFeed.Advance(lf.feed), lf.index + 1), LegacyMarket)
  }

  /** `update_bars` applied `k` times. */
  function UpdateN(lf: LegacyFeed, k: nat): (r: LegacyFeed)
    requires BarFeed.Valid(lf.feed)
    ensures BarFeed.Valid(r.feed) && r.feed.symbols == lf.feed.symbols
    ensures VolumeFree(lf.feed) ==> VolumeFree(r.feed)
    decreases k
  {
    if k == 0 then lf else UpdateN(UpdateBars(lf).state, k - 1)
  }

  /** `index` counts the `update_bars` calls exactly, and the bars move as
      they do in the packaged handler. */
  lemma {:induction false} IndexCountsUpdates(lf: LegacyFeed, k: nat)
    requires BarFeed.Valid(lf.feed)
    ensures UpdateN(lf, k).index == lf.index + k
    ensures UpdateN(lf, k).feed == BarFeed.AdvanceN(lf.feed, k)
    decreases k
  {
    if k > 0 {
      IndexCountsUpdates(UpdateBars(lf).state, k - 1);
    }
  }

  /** `get_latest_bar`: `None` for an unknown symbol (after printing a
      message), the last bar of the history, or `IndexError` when the
      history is still empty. */
  function LatestBar(lf: LegacyFeed, s: Symbol): (r: Result<Option<Bar>>)
    ensures s !in lf.feed.history ==> r == Success(None)
    ensures s in lf.feed.history && lf.feed.history[s] == [] ==> r == Failure(IndexError)
    ensures s in lf.feed.history && lf.feed.history[s] != [] ==>
              r.Success? && r.value.Some? && r.value.value == lf.feed.history[s][|lf.feed.history[s]| - 1]
  {
    if s !in lf.feed.history then Success(None)
    else if lf.feed.history[s] == [] then Failure(IndexError)
    else Success(Some(Last(lf.feed.history[s])))
  }

  /** `get_latest_bar_value`: the named attribute of `get_latest_bar`.
      `getattr(None, ...)` raises `AttributeError`; a bar without the key
      raises `KeyError`. */
  function LatestBarValue(lf: LegacyFeed, s: Symbol, field: Field): (r: Result<Value>)
    ensures s !in lf.feed.history ==> r == Failure(AttributeError)
    ensures s in lf.feed.history && lf.feed.history[s] == [] ==> r == Failure(IndexError)
    ensures (s in lf.feed.history && lf.feed.history[s] != [] &&
             FieldOf(Last(lf.feed.history[s]), field).None?) ==> r == Failure(KeyError)
    ensures r.Success? ==> LatestBar(lf, s).Success? && LatestBar(lf, s).value.Some?
    ensures r.Success? ==> FieldOf(LatestBar(lf, s).value.value, field) == Some(r.value)
    ensures (LatestBar(lf, s).Success? && LatestBar(lf, s).value.Some? &&
             FieldOf(LatestBar(lf, s).value.value, field).Some?) ==> r.Success?
  {
    match LatestBar(lf, s)
    case Failure(e) => Failure(e)
    case Success(None) => Failure(AttributeError)
    case Success(Some(b)) =>
      match FieldOf(b, field)
      case None => Failure(KeyError)
      case Some(v) => Success(v)
  }

  /** Asking the standalone handler for a volume raises `KeyError` once
      the symbol has a bar. */
  lemma VolumeRaisesKeyError(lf: LegacyFeed, s: Symbol)
    requires VolumeFree(lf.feed)
    requires s in lf.feed.history && lf.feed.history[s] != []
    ensures LatestBarValue(lf, s, Volume) == Failure(KeyError)
  {
    assert Last(lf.feed.history[s]) in lf.feed.history[s];
  }

  /** `get_latest_bar` is the one bar `get_latest_bars(symbol, 1)` returns. */
  lemma LatestBarIsLatestBarsOfOne(lf: LegacyFeed, s: Symbol)
    requires s in lf.feed.history && lf.feed.history[s] != []
    ensures BarFeed.LatestBars(lf.feed, s, 1) == Some([LatestBar(lf, s).value.value])
  {
    var h := lf.feed.history[s];
    assert h[|h| - 1..] == [h[|h| - 1]];
  }
}

=== FILE: legacy_events.dfy ===
/** The standalone event records (`event.py`): a payload-free market event,
    orders without a price, and a commission proportional to the quantity.
    Signals are the same record as in the packaged version. */
module LegacyEvents {
  import opened Base
  import opened Events

  datatype LegacyOrder = LegacyOrder(symbol: Symbol, orderType: OrderType,
                                     quantity: real, direction: Direction)

  /** `fillCost` is `None` for a market fill. */
  datatype LegacyFill = LegacyFill(timeindex: Timestamp, symbol: Symbol,
                                   exchange: string, quantity: real,
                                   direction: Direction, fillCost: Option<real>,
                                   commission: real)

  /** The market event carries nothing but its `type` tag. */
  datatype LegacyEvent =
    | LegacyMarket
    | LegacySignal(signal: SignalEvent)
    | LegacyOrderEvent(order: LegacyOrder)
    | LegacyFillEvent(fill: LegacyFill)

  /** The commission rate per unit of quantity. */
  const CommissionRate: real := 0.002

  /** `calculate_commission`: proportional to the quantity, so zero for a zero
      quantity, never negative for a non-negative one, and additive. */
  function Commission(quantity: real): (c: real)
    ensures quantity == 0.0 ==> c == 0.0
    ensures quantity >= 0.0 ==> c >= 0.0
    ensures quantity == 1.0 ==> c == 0.002
  {
    CommissionRate * quantity
  }

  /** The default commission is linear in the quantity. */
  lemma CommissionLinear(a: real, b: real, k: real)
    ensures Commission(a + b) == Commission(a) + Commission(b)
    ensures Commission(k * a) == k * Commission(a)
  {
  }

  /** `FillEvent(...)`: every argument is kept, and a missing commission is
      computed from the quantity. */
  function NewFill(timeindex: Timestamp, symbol: Symbol, exchange: string,
                   quantity: real, direction: Direction, fillCost: Option<real>,
                   commission: Option<real>): (f: LegacyFill)
    ensures f.timeindex == timeindex && f.symbol == symbol && f.exchange == exchange
    ensures f.quantity == quantity && f.direction == direction && f.fillCost == fillCost
    ensures commission.None? ==> f.commission == 0.002 * quantity
    ensures commission.Some? ==> f.commission == commission.value
  {
    var c := if commission.Some? then commission.value else Commission(quantity);
    LegacyFill(timeindex, symbol, exchange, quantity, direction, fillCost, c)
  }

  /** The legacy `type` tags are the packaged ones. */
  function LegacyTypeTag(e: LegacyEvent): (tag: string)
    ensures e.LegacyMarket? <==> tag == "MARKET"
    ensures e.LegacySignal? <==> tag == "SIGNAL"
    ensures e.LegacyOrderEvent? <==> tag == "ORDER"
    ensures e.LegacyFillEvent? <==> tag == "FILL"
  {
    match e
    case LegacyMarket => "MARKET"
    case LegacySignal(_) => "SIGNAL"
    case LegacyOrderEvent(_) => "ORDER"
    case LegacyFillEvent(_) => "FILL"
  }
}

=== FILE: legacy_execution.dfy ===
/** The standalone simulated execution handler (`execution.py`): market
    orders are filled through the event queue with a quantity-proportional
    commission, stop orders are parked, and the stop check compares the close
    with the stop price without looking at the order's direction.

    As written, the stop check cannot run: the standalone market event has no
    `market_data` and the standalone order has no `price`. The model states
    that outcome, and separately states the trigger rule and the removal on
    stops paired with a price and a map of bars. */
module LegacyExecution {
  import opened Base
  import opened Events
  import opened LegacyEvents
  import opened StopScan
  import Execution

  /** The pending list a new handler starts with. */
  const NoStops: seq<LegacyOrder> := []

  /** What `execute_order` leaves behind: the pending stops and the events it
      put on the queue. */
  datatype LegacyExecuted = LegacyExecuted(pending: seq<LegacyOrder>, enqueued: seq<LegacyEvent>)

  /** `execute_order`: an `MKT` order puts one unpriced fill on the queue,
      stamped with the wall clock and charged the default commission; an
      `STP` order is appended to the pending list; anything else changes
      nothing. */
  function ExecuteOrder(pending: seq<LegacyOrder>, e: LegacyEvent, now: Timestamp): (r: LegacyExecuted)
    ensures !e.LegacyOrderEvent? ==> r == LegacyExecuted(pending, [])
    ensures e.LegacyOrderEvent? && e.order.orderType.Mkt? ==>
              && r.pending == pending
              && |r.enqueued| == 1 && r.enqueued[0].LegacyFillEvent?
              && r.enqueued[0].fill.symbol == e.order.symbol
              && r.enqueued[0].fill.quantity == e.order.quantity
              && r.enqueued[0].fill.direction == e.order.direction
              && r.enqueued[0].fill.exchange == "BACKTEST"
              && r.enqueued[0].fill.fillCost == None
              && r.enqueued[0].fill.timeindex == now
              && r.enqueued[0].fill.commission == 0.002 * e.order.quantity
    ensures e.LegacyOrderEvent? && e.order.orderType.Stp? ==>
              r.pending == pending + [e.order] && r.enqueued == []
    ensures e.LegacyOrderEvent? && e.order.orderType.OtherOrderType? ==>
              r == LegacyExecuted(pending, [])
  {
    match e
    case LegacyOrderEvent(o) =>
      (match o.orderType
       case Mkt =>
         var f := LegacyEvents.NewFill(now, o.symbol, "BACKTEST", o.quantity, o.direction, None, None);
         LegacyExecuted(pending, [LegacyFillEvent(f)])
       case Stp => LegacyExecuted(pending + [o], [])
       case OtherOrderType(_) => LegacyExecuted(pending, []))
    case _ => LegacyExecuted(pending, [])
  }

  /** `check_stop_orders` as written: any event but a market event is
      ignored, and so is a market event while nothing is pending; with a
      pending stop, reading `event.market_data` raises `AttributeError`. */
  function CheckStopOrders(pending: seq<LegacyOrder>, e: LegacyEvent): (r: Result<seq<LegacyOrder>>)
    ensures r.Failure? <==> e.LegacyMarket? && pending != []
    ensures r.Failure? ==> r.fault == AttributeError
    ensures r.Success? ==> r.value == pending
  {
    if e.LegacyMarket? && pending != [] then Failure(AttributeError)
    else Success(pending)
  }

  /** The trigger rule: the close strictly above the stop price, whatever
      the order's direction. */
  predicate Fires(close: real, stop: real)
  {
    close > stop
  }

  /** A pending stop paired with the stop price the comparison reads. */
  datatype PricedStop = PricedStop(order: LegacyOrder, price: real)

  /** One stop on one map of bars: compared only when its symbol has a bar. */
  function Judge(p: PricedStop, md: map<Symbol, Bar>): (v: Verdict)
    ensures v != Fire <==> v == Pass
    ensures v == Fire <==> p.order.symbol in md && Fires(md[p.order.symbol].close, p.price)
  {
    if p.order.symbol in md && Fires(md[p.order.symbol].close, p.price) then Fire else Pass
  }

  function JudgeAt(md: map<Symbol, Bar>): PricedStop -> Verdict
  {
    p => Judge(p, md)
  }

  /** The loop's trigger and removal on priced stops: it never raises, every
      stop ends up pending or triggered, a triggered stop's close is above its
      stop price, and a stop whose close is not above its price stays. Like
      the packaged loop it removes while iterating, so the stop after a
      triggered one is not compared on that pass. */
  function TriggerAndRemove(pending: seq<PricedStop>, md: map<Symbol, Bar>): (r: Outcome<PricedStop>)
    ensures Success(r) == Walk(pending, JudgeAt(md))
    ensures multiset(r.pending) + multiset(r.fired) == multiset(pending)
    ensures forall p :: p in r.fired ==>
              p.order.symbol in md && md[p.order.symbol].close > p.price
    ensures forall p :: p in pending && (p.order.symbol !in md || md[p.order.symbol].close <= p.price) ==>
              p in r.pending
  {
    assert forall p :: JudgeAt(md)(p) == Judge(p, md);
    CheckAll(pending, JudgeAt(md)).value
  }

  /** The rule ignores the direction: a SELL stop fires when the price rises
      through it, where the packaged handler would fire only on a fall. */
  lemma SellStopFiresOnRise(o: LegacyOrder, md: map<Symbol, Bar>, stop: real)
    requires o.direction == Sell && o.symbol in md && md[o.symbol].close > stop
    ensures TriggerAndRemove([PricedStop(o, stop)], md) == Outcome([], [PricedStop(o, stop)])
    ensures !Execution.Fires(o.direction, md[o.symbol].close, stop)
  {
    assert Judge(PricedStop(o, stop), md) == Fire;
  }
}

=== FILE: naive_stop.dfy ===
/** The stop-order sizing of the example portfolio `NaiveStopPortfolio`
    (`generate_naive_order` in `examples/prediction_bt_keras_5min_BTC_LTC.py`
    and its identical copy in
    `examples/prediction_bt_keras_5min_btc_eth_real_data.py`): enter with a
    fixed size only when flat, leave by flattening the whole position, and
    place every order as a stop tilted 0.1% against the trade. */
module NaiveStop {
  import opened Base
  import opened Events
  import BarFeed

  /** The stop price tilt. */
  const Tilt: real := 0.001

  /** The fixed entry size. */
  const EntryQuantity: real := 1000.0

  /** A BUY stop sits above the close, a SELL stop below it. */
  function Tilted(close: real, d: Direction): (p: real)
    ensures d == Buy ==> p == close * 1.001
    ensures d == Sell ==> p == close * 0.999
  {
    match d
    case Buy => close * (1.0 + Tilt)
    case Sell => close * (1.0 - Tilt)
  }

  /** The order for a signal, given the current position in the signal's
      symbol and that symbol's latest close. Entries (LONG, SHORT) are only
      placed while flat; EXIT closes a long by selling and a short by buying
      the whole position; every other case places nothing. */
  function NaiveOrder(signal: SignalEvent, position: real, close: real): (r: Option<OrderEvent>)
    ensures r.Some? ==>
              && r.value.orderType == Stp && r.value.quantity > 0.0
              && r.value.symbol == signal.symbol
              && r.value.price == Some(Tilted(close, r.value.direction))
    ensures r.None? <==> (signal.signalType != Exit && position != 0.0) ||
                         (signal.signalType == Exit && position == 0.0)
    ensures signal.signalType == Long && position == 0.0 ==>
              r.value.direction == Buy && r.value.quantity == 1000.0
    ensures signal.signalType == Short && position == 0.0 ==>
              r.value.direction == Sell && r.value.quantity == 1000.0
    ensures signal.signalType == Exit && position > 0.0 ==>
              r.value.direction == Sell && r.value.quantity == position
    ensures signal.signalType == Exit && position < 0.0 ==>
              r.value.direction == Buy && r.value.quantity == -position
  {
    var entry :=
      if signal.signalType == Long && position == 0.0 then
        Some(OrderEvent(signal.symbol, Stp, EntryQuantity, Buy, Some(Tilted(close, Buy))))
      else if signal.signalType == Short && position == 0.0 then
        Some(OrderEvent(signal.symbol, Stp, EntryQuantity, Sell, Some(Tilted(close, Sell))))
      else None;
    if signal.signalType == Exit then
      if position > 0.0 then
        Some(OrderEvent(signal.symbol, Stp, Abs(position), Sell, Some(Tilted(close, Sell))))
      else if position < 0.0 then
        Some(OrderEvent(signal.symbol, Stp, Abs(position), Buy, Some(Tilted(close, Buy))))
      else entry
    else
      assert signal.signalType == Long || signal.signalType == Short;
      entry
  }

  /** The change an order makes to the position once it is filled. */
  function Signed(o: OrderEvent): real
  {
    match o.direction
    case Buy => o.quantity
    case Sell => -o.quantity
  }

  /** Every order moves the position towards the signal: an EXIT order
      brings it back to flat, and an entry from flat opens a position of the
      fixed size on the signal's side. */
  lemma OrdersMoveTowardsSignal(signal: SignalEvent, position: real, close: real)
    requires NaiveOrder(signal, position, close).Some?
    ensures var o := NaiveOrder(signal, position, close).value;
            && (signal.signalType == Exit ==> position + Signed(o) == 0.0)
            && (signal.signalType == Long ==> position + Signed(o) == 1000.0)
            && (signal.signalType == Short ==> position + Signed(o) == -1000.0)
  {
  }

  /** For a positive close the tilt brackets the close symmetrically: a BUY
      stop strictly above it, a SELL stop strictly below it, both 0.1% away. */
  lemma TiltBracketsClose(close: real)
    requires close > 0.0
    ensures Tilted(close, Sell) < close < Tilted(close, Buy)
    ensures Tilted(close, Buy) - close == close - Tilted(close, Sell) == close * Tilt
  {
  }

  /** `generate_naive_order`: the position lookup raises `KeyError` for a
      symbol without a position, then indexing the latest bars raises
      `TypeError` for a symbol the data handler does not know and
      `IndexError` while its history is empty; otherwise the order is sized
      from the position and the latest close. */
  function GenerateNaiveOrder(signal: SignalEvent, positions: map<Symbol, real>, feed: BarFeed.Feed)
    : (r: Result<Option<OrderEvent>>)
    ensures signal.symbol !in positions ==> r == Failure(KeyError)
    ensures signal.symbol in positions && signal.symbol !in feed.history ==> r == Failure(TypeError)
    ensures (signal.symbol in positions && signal.symbol in feed.history &&
             feed.history[signal.symbol] == []) ==> r == Failure(IndexError)
    ensures (signal.symbol in positions && signal.symbol in feed.history &&
             feed.history[signal.symbol] != []) ==> r.Success?
    ensures r.Success? ==>
              && signal.symbol in positions && signal.symbol in feed.history
              && feed.history[signal.symbol] != []
              && r.value == NaiveOrder(signal, positions[signal.symbol],
                                       Last(feed.history[signal.symbol]).close)
  {
    if signal.symbol !in positions then Failure(KeyError)
    else
      match BarFeed.LatestBars(feed, signal.symbol, 1)
      case None => Failure(TypeError)
      case Some(bars) =>
        if |bars| == 0 then Failure(IndexError)
        else
          var h := feed.history[signal.symbol];
          assert bars == h[|h| - 1..];
          Success(NaiveOrder(signal, positions[signal.symbol], bars[0].close))
  }
}

=== FILE: reindex.dfy ===
/** How the CSV data handlers line the symbols up before the backtest starts
    (`_open_convert_csv_files` in `mikasa/data.py` and `data.py`): the
    combined index is built from the first symbol alone, because the result
    of every later `union` is thrown away, and each symbol is then
    forward-filled ("padded") onto that index. */
module Reindex {
  import opened Base

  /** The timestamps of a symbol's rows, in file order. */
  function Times(rows: seq<Bar>): (ts: seq<Timestamp>)
    ensures |ts| == |rows|
    ensures forall i :: 0 <= i < |rows| ==> ts[i] == rows[i].time
  {
    seq(|rows|, i requires 0 <= i < |rows| => rows[i].time)
  }

  /** Strictly increasing timestamps: the only row order the model reindexes. */
  predicate Increasing(rows: seq<Bar>)
  {
    forall i, j :: 0 <= i < j < |rows| ==> rows[i].time < rows[j].time
  }

  /** The loop over the symbols' indexes: the first index is taken, and for
      every later one `comb_index.union(...)` is evaluated and discarded. */
  function CombineFrom(comb: Option<seq<Timestamp>>, rest: seq<seq<Timestamp>>): (r: Option<seq<Timestamp>>)
    ensures comb.Some? ==> r == comb
    ensures comb.None? && |rest| > 0 ==> r == Some(rest[0])
    ensures comb.None? && |rest| == 0 ==> r == None
    decreases |rest|
  {
    if |rest| == 0 then comb
    else if comb.None? then CombineFrom(Some(rest[0]), rest[1..])
    else CombineFrom(comb, rest[1..])
  }

  /** The combined index is exactly the first symbol's index: timestamps
      that only later symbols have are not part of it. */
  function CombinedIndex(indexes: seq<seq<Timestamp>>): (r: Option<seq<Timestamp>>)
    ensures |indexes| == 0 <==> r.None?
    ensures |indexes| > 0 ==> r == Some(indexes[0])
  {
    CombineFrom(None, indexes)
  }

  /** The position of the latest row at or before `t`, if there is one. */
  function LastAtOrBefore(rows: seq<Bar>, t: Timestamp): (r: Option<nat>)
    ensures r.Some? ==> r.value < |rows| && rows[r.value].time <= t
    ensures r.Some? ==> forall j :: r.value < j < |rows| ==> rows[j].time > t
    ensures r.None? <==> forall j :: 0 <= j < |rows| ==> rows[j].time > t
    decreases |rows|
  {
    if |rows| == 0 then None
    else if rows[|rows| - 1].time <= t then Some(|rows| - 1)
    else LastAtOrBefore(rows[..|rows| - 1], t)
  }

  /** The padded row at label `t`: the latest row at or before `t` carried
      forward and labelled `t`, or `None` (pandas' all-NaN row) when the
      symbol has no row that early. */
  function PadAt(rows: seq<Bar>, t: Timestamp): Option<Bar>
  {
    match LastAtOrBefore(rows, t)
    case None => None
    case Some(k) => Some(rows[k].(time := t))
  }

  /** Padding `rows` onto `index` makes pandas raise `ValueError`: the
      target differs from the rows' own timestamps, so pandas has to search
      them, and they are not strictly increasing. */
  predicate Misordered(rows: seq<Bar>, index: seq<Timestamp>)
  {
    Times(rows) != index && !Increasing(rows)
  }

  /** `reindex(index=comb_index, method='pad')` of one symbol's rows. When
      the target equals the rows' own timestamps pandas returns the rows as
      they are, in any order. Otherwise rows that are not strictly
      increasing make it raise `ValueError`, and each output row is labelled
      with its index timestamp and holds the prices of the latest row at or
      before it. */
  function Pad(rows: seq<Bar>, index: seq<Timestamp>): (r: Result<seq<Option<Bar>>>)
    ensures r.Failure? <==> Misordered(rows, index)
    ensures r.Failure? ==> r.fault == ValueError
    ensures r.Success? ==> |r.value| == |index|
    ensures Times(rows) == index ==>
              r.Success? && forall i :: 0 <= i < |rows| ==> r.value[i] == Some(rows[i])
    ensures r.Success? && Times(rows) != index ==> forall i :: 0 <= i < |index| ==>
              (r.value[i].None? <==> forall j :: 0 <= j < |rows| ==> rows[j].time > index[i])
    ensures r.Success? && Times(rows) != index ==> forall i :: 0 <= i < |index| && r.value[i].Some? ==>
              && r.value[i].value.time == index[i]
              && exists k :: 0 <= k < |rows| && rows[k].time <= index[i]
                   && r.value[i].value == rows[k].(time := index[i])
                   && forall j :: k < j < |rows| ==> rows[j].time > index[i]
  {
    if Times(rows) == index then Success(seq(|rows|, i requires 0 <= i < |rows| => Some(rows[i])))
    else if !Increasing(rows) then Failure(ValueError)
    else Success(seq(|index|, i requires 0 <= i < |index| => PadAt(rows, index[i])))
  }

  /** Forward fill: at a timestamp the symbol has a row for, the padded row is
      that row; elsewhere it is the symbol's most recent earlier row. */
  lemma ForwardFill(rows: seq<Bar>, index: seq<Timestamp>, i: nat, k: nat)
    requires Increasing(rows)
    requires i < |index| && k < |rows| && rows[k].time <= index[i]
    requires k + 1 == |rows| || rows[k + 1].time > index[i]
    ensures Pad(rows, index).Success?
    ensures Pad(rows, index).value[i] == Some(rows[k].(time := index[i]))
  {
    if Times(rows) == index {
      assert index[i] == rows[i].time;
      assert k == i;
      assert rows[k].(time := index[i]) == rows[i];
    } else {
      var m := LastAtOrBefore(rows, index[i]);
      assert m == Some(k);
    }
  }

  /** Padding a symbol onto its own index gives back its own rows, in
      whatever order they are. */
  lemma PadOntoOwnIndex(rows: seq<Bar>)
    ensures Pad(rows, Times(rows)).Success?
    ensures forall i :: 0 <= i < |rows| ==> Pad(rows, Times(rows)).value[i] == Some(rows[i])
  {
  }

  /** The combined index of a non-empty symbol list: the first symbol's
      timestamps. */
  function FirstIndex(symbols: seq<Symbol>, raw: map<Symbol, seq<Bar>>): seq<Timestamp>
    requires |symbols| > 0 && symbols[0] in raw
  {
    Times(raw[symbols[0]])
  }

  /** Position `i` is where the reindexing pass over the symbol list
      raises: a repeated symbol's entry is already a row iterator, and a
      first occurrence whose rows cannot be padded onto the combined index
      is `Misordered`. The first symbol never is: its index is the combined
      index. */
  predicate BadAt(symbols: seq<Symbol>, raw: map<Symbol, seq<Bar>>, i: int)
    requires forall s :: s in symbols ==> s in raw
  {
    && 0 <= i < |symbols|
    && (symbols[i] in symbols[..i] || Misordered(raw[symbols[i]], FirstIndex(symbols, raw)))
  }

  /** What the pass raises at a bad position: `AttributeError` for calling
      `reindex` on an iterator, `ValueError` from the padding. */
  function FaultAt(symbols: seq<Symbol>, i: int): Fault
    requires 0 <= i < |symbols|
  {
    if symbols[i] in symbols[..i] then AttributeError else ValueError
  }

  /** The first bad position at or after `i`, scanning in list order. */
  function FirstBad(symbols: seq<Symbol>, raw: map<Symbol, seq<Bar>>, i: nat): (r: Option<nat>)
    requires forall s :: s in symbols ==> s in raw
    requires i <= |symbols|
    ensures r.Some? ==> i <= r.value && BadAt(symbols, raw, r.value)
    ensures r.Some? ==> forall j :: i <= j < r.value ==> !BadAt(symbols, raw, j)
    ensures r.None? ==> forall j :: i <= j ==> !BadAt(symbols, raw, j)
    decreases |symbols| - i
  {
    if i == |symbols| then None
    else if BadAt(symbols, raw, i) then Some(i)
    else FirstBad(symbols, raw, i + 1)
  }

  /** Some position is bad exactly when a symbol repeats or some symbol's
      rows cannot be padded onto the combined index. */
  lemma BadSomewhere(symbols: seq<Symbol>, raw: map<Symbol, seq<Bar>>)
    requires forall s :: s in symbols ==> s in raw
    ensures (exists i :: BadAt(symbols, raw, i)) <==>
            !Distinct(symbols) || exists s :: s in symbols && Misordered(raw[s], FirstIndex(symbols, raw))
  {
    if !Distinct(symbols) {
      var j, k :| 0 <= j < k < |symbols| && symbols[j] == symbols[k];
      assert symbols[k] == symbols[..k][j];
      assert BadAt(symbols, raw, k);
    }
    if exists s :: s in symbols && Misordered(raw[s], FirstIndex(symbols, raw)) {
      var s :| s in symbols && Misordered(raw[s], FirstIndex(symbols, raw));
      var i :| 0 <= i < |symbols| && symbols[i] == s;
      assert BadAt(symbols, raw, i);
    }
    if exists i :: BadAt(symbols, raw, i) {
      var i :| BadAt(symbols, raw, i);
      if symbols[i] in symbols[..i] {
        var j :| 0 <= j < i && symbols[..i][j] == symbols[i];
        assert symbols[j] == symbols[i];
      } else {
        assert symbols[i] in symbols;
      }
    }
  }

  /** `_open_convert_csv_files` after loading: every symbol padded onto the
      first symbol's index, one symbol after another in list order. The
      first bad position decides the error: a repeated symbol makes the pass
      call `reindex` on an iterator (`AttributeError`), a symbol whose rows
      are `Misordered` makes the padding raise `ValueError`. On success
      every symbol holds its `Pad` onto the first symbol's timestamps, so
      all share one length and one sequence of labels, and the first symbol
      keeps its rows as they are. */
  function ReindexAll(symbols: seq<Symbol>, raw: map<Symbol, seq<Bar>>): (r: Result<map<Symbol, seq<Option<Bar>>>>)
    requires forall s :: s in symbols ==> s in raw
    ensures r.Failure? <==> exists i :: BadAt(symbols, raw, i)
    ensures r.Failure? ==> exists i :: && BadAt(symbols, raw, i)
                                       && (forall j :: 0 <= j < i ==> !BadAt(symbols, raw, j))
                                       && r.fault == FaultAt(symbols, i)
    ensures |symbols| > 0 ==>
              (r.Failure? <==> !Distinct(symbols) || exists s :: s in symbols && Misordered(raw[s], FirstIndex(symbols, raw)))
    ensures r.Success? ==> forall s :: s in r.value <==> s in symbols
    ensures r.Success? && |symbols| > 0 ==> forall s :: s in symbols ==>
              && |r.value[s]| == |raw[symbols[0]]|
              && forall i :: 0 <= i < |r.value[s]| && r.value[s][i].Some? ==>
                   r.value[s][i].value.time == raw[symbols[0]][i].time
    ensures r.Success? && |symbols| > 0 ==>
              forall i :: 0 <= i < |raw[symbols[0]]| ==> r.value[symbols[0]][i] == Some(raw[symbols[0]][i])
    ensures r.Success? && |symbols| > 0 ==> forall s :: s in symbols ==>
              && Pad(raw[s], FirstIndex(symbols, raw)).Success?
              && r.value[s] == Pad(raw[s], FirstIndex(symbols, raw)).value
  {
    BadSomewhere(symbols, raw);
    match FirstBad(symbols, raw, 0)
    case Some(i) => Failure(FaultAt(symbols, i))
    case None =>
      if |symbols| == 0 then Success(map[])
      else
        var index := CombinedIndex(seq(|symbols|, i requires 0 <= i < |symbols| => Times(raw[symbols[i]]))).value;
        assert index == FirstIndex(symbols, raw);
        Success(map s | s in symbols :: Pad(raw[s], index).value)
  }

  /** A repeated symbol fails at its second occurrence with
      `AttributeError`, whatever order its rows are in: the first occurrence
      is padded onto its own index. */
  lemma RepeatRaisesAttributeError(s: Symbol, raw: map<Symbol, seq<Bar>>)
    requires s in raw
    ensures ReindexAll([s, s], raw) == Failure(AttributeError)
  {
    assert !BadAt([s, s], raw, 0) by { assert [s, s][..0] == []; }
    assert BadAt([s, s], raw, 1) by { assert [s, s][..1] == [s]; }
  }

  /** Symbols are reindexed in list order: a symbol whose rows cannot be
      padded onto the first symbol's index fails on its first occurrence
      with `ValueError`, before its repeat is reached. */
  lemma UnorderedBeforeRepeat(t: Symbol, s: Symbol, raw: map<Symbol, seq<Bar>>)
    requires t in raw && s in raw && !Increasing(raw[s]) && Times(raw[s]) != Times(raw[t])
    ensures ReindexAll([t, s, s], raw) == Failure(ValueError)
  {
    var symbols := [t, s, s];
    assert !BadAt(symbols, raw, 0) by { assert symbols[..0] == []; }
    assert BadAt(symbols, raw, 1) by { assert symbols[..1] == [t]; }
    assert FaultAt(symbols, 1) == ValueError by { assert symbols[..1] == [t]; }
  }
}

=== FILE: stop_scan.dfy ===
/** The loop both simulated execution handlers run over their pending stop
    orders: `for order in stop_orders: ... stop_orders.remove(order)`.
    Python's list iterator keeps a position that moves forward by one after
    every element, while `remove` shifts the rest of the list down by one, so
    the element right after a removed one is skipped on that pass.

    The scan is generic in what a stop is and in how one stop is judged on
    the current market event. */
module StopScan {
  import opened Base

  /** How one pending stop is judged: left alone, triggered (removed and
      filled), or the comparison raises. */
  datatype Verdict = Pass | Fire | Raise(fault: Fault)

  /** The stops left pending and, in order, the stops that were triggered. */
  datatype Outcome<T> = Outcome(pending: seq<T>, fired: seq<T>)

  /** The loop as Python runs it: the iterator reads position `i` and then
      moves to `i + 1`; a triggered stop is removed at position `i`. */
  function Scan<T>(list: seq<T>, i: nat, judge: T -> Verdict): Result<Outcome<T>>
    decreases |list| + 1 - i
  {
    if i >= |list| then Success(Outcome(list, []))
    else
      match judge(list[i])
      case Pass => Scan(list, i + 1, judge)
      case Raise(e) => Failure(e)
      case Fire =>
        match Scan(list[..i] + list[i + 1..], i + 1, judge)
        case Failure(e) => Failure(e)
        case Success(c) => Success(Outcome(c.pending, [list[i]] + c.fired))
  }

  /** The same loop stated over the list itself: a passed stop stays; a
      triggered stop is removed and the stop right after it stays without
      being judged. */
  function Walk<T>(list: seq<T>, judge: T -> Verdict): Result<Outcome<T>>
    decreases |list|
  {
    if |list| == 0 then Success(Outcome([], []))
    else
      match judge(list[0])
      case Pass =>
        (match Walk(list[1..], judge)
         case Failure(e) => Failure(e)
         case Success(c) => Success(Outcome([list[0]] + c.pending, c.fired)))
      case Raise(e) => Failure(e)
      case Fire =>
        if |list| == 1 then Success(Outcome([], [list[0]]))
        else
          match Walk(list[2..], judge)
          case Failure(e) => Failure(e)
          case Success(c) => Success(Outcome([list[1]] + c.pending, [list[0]] + c.fired))
  }

  /** The stops before the iterator's position were already passed over. */
  function Prepend<T>(pre: seq<T>, r: Result<Outcome<T>>): Result<Outcome<T>>
  {
    match r
    case Failure(e) => Failure(e)
    case Success(c) => Success(Outcome(pre + c.pending, c.fired))
  }

  lemma PrependNothing<T>(r: Result<Outcome<T>>)
    ensures Prepend([], r) == r
  {
    if r.Success? {
      assert [] + r.value.pending == r.value.pending;
    }
  }

  /** Python's index-based iteration with removal is exactly the walk. */
  lemma {:induction false} ScanIsWalk<T>(list: seq<T>, i: nat, judge: T -> Verdict)
    requires i <= |list|
    ensures Scan(list, i, judge) == Prepend(list[..i], Walk(list[i..], judge))
    decreases |list| + 1 - i
  {
    if i == |list| {
      assert list[..i] == list && list[i..] == [];
      assert list[..i] + [] == list;
    } else {
      match judge(list[i])
      case Pass =>
        ScanIsWalk(list, i + 1, judge);
        ScanPassStep(list, i, judge);
      case Raise(_) =>
        assert list[i..][0] == list[i];
      case Fire =>
        if i + 1 == |list| {
          assert list[..i] + list[i + 1..] == list[..i];
          assert list[i..] == [list[i]];
          assert list[..i] + [] == list[..i];
          assert [list[i]] + [] == [list[i]];
        } else {
          var shorter := list[..i] + list[i + 1..];
          ScanIsWalk(shorter, i + 1, judge);
          ScanFireStep(list, i, judge);
        }
    }
  }

  /** The step for a stop that is passed: it joins the passed-over prefix. */
  lemma ScanPassStep<T>(list: seq<T>, i: nat, judge: T -> Verdict)
    requires i < |list| && judge(list[i]) == Pass
    requires Scan(list, i + 1, judge) == Prepend(list[..i + 1], Walk(list[i + 1..], judge))
    ensures Scan(list, i, judge) == Prepend(list[..i], Walk(list[i..], judge))
  {
    var rest := list[i..];
    assert rest[0] == list[i] && rest[1..] == list[i + 1..];
    assert list[..i + 1] == list[..i] + [list[i]];
    match Walk(rest[1..], judge)
    case Failure(_) =>
    case Success(c) =>
      assert Walk(rest, judge) == Success(Outcome([list[i]] + c.pending, c.fired));
      assert list[..i] + ([list[i]] + c.pending) == list[..i + 1] + c.pending;
  }

  /** The step for a triggered stop that is not the last: the stop after it
      joins the passed-over prefix without being judged. */
  lemma ScanFireStep<T>(list: seq<T>, i: nat, judge: T -> Verdict)
    requires i + 1 < |list| && judge(list[i]) == Fire
    requires var shorter := list[..i] + list[i + 1..];
             Scan(shorter, i + 1, judge) == Prepend(shorter[..i + 1], Walk(shorter[i + 1..], judge))
    ensures Scan(list, i, judge) == Prepend(list[..i], Walk(list[i..], judge))
  {
    var rest := list[i..];
    var shorter := list[..i] + list[i + 1..];
    assert shorter[..i + 1] == list[..i] + [list[i + 1]];
    assert shorter[i + 1..] == list[i + 2..];
    assert rest[0] == list[i] && rest[1] == list[i + 1] && rest[2..] == list[i + 2..];
    match Walk(rest[2..], judge)
    case Failure(_) =>
    case Success(c) =>
      assert Walk(rest, judge) == Success(Outcome([list[i + 1]] + c.pending, [list[i]] + c.fired));
      assert list[..i] + ([list[i + 1]] + c.pending) == (list[..i] + [list[i + 1]]) + c.pending;
  }

  /** Every stop ends up either pending or triggered: none is lost or
      invented. */
  lemma {:induction false} WalkPartitions<T>(list: seq<T>, judge: T -> Verdict)
    ensures var r := Walk(list, judge);
            r.Success? ==> multiset(r.value.pending) + multiset(r.value.fired) == multiset(list)
    decreases |list|
  {
    if |list| > 0 {
      match judge(list[0])
      case Pass =>
        WalkPartitions(list[1..], judge);
        assert list == [list[0]] + list[1..];
      case Raise(_) =>
      case Fire =>
        if |list| > 1 {
          WalkPartitions(list[2..], judge);
          assert list == [list[0], list[1]] + list[2..];
        }
    }
  }

  /** Only stops judged `Fire` are triggered, and every stop judged `Pass`
      stays pending. */
  lemma {:induction false} WalkFiresOnlyFired<T>(list: seq<T>, judge: T -> Verdict)
    ensures var r := Walk(list, judge);
            r.Success? ==> forall p :: p in r.value.fired ==> judge(p) == Fire
    ensures var r := Walk(list, judge);
            r.Success? ==> forall p :: p in list && judge(p) != Fire ==> p in r.value.pending
    decreases |list|
  {
    if |list| > 0 {
      match judge(list[0])
      case Pass =>
        WalkFiresOnlyFired(list[1..], judge);
        assert forall q :: q in list ==> q == list[0] || q in list[1..];
      case Raise(_) =>
      case Fire =>
        if |list| > 1 {
          WalkFiresOnlyFired(list[2..], judge);
          assert forall q :: q in list ==> q == list[0] || q == list[1] || q in list[2..];
        }
    }
  }

  /** The walk fails only with the fault some stop of the list raises, and
      succeeds when no stop raises. */
  lemma {:induction false} WalkFailsOnlyRaised<T>(list: seq<T>, judge: T -> Verdict)
    ensures var r := Walk(list, judge);
            r.Failure? ==> exists p :: p in list && judge(p) == Raise(r.fault)
    ensures (forall p :: p in list ==> !judge(p).Raise?) ==> Walk(list, judge).Success?
    decreases |list|
  {
    if |list| > 0 {
      match judge(list[0])
      case Pass =>
        WalkFailsOnlyRaised(list[1..], judge);
        assert forall q :: q in list[1..] ==> q in list;
      case Raise(_) =>
        assert list[0] in list;
      case Fire =>
        if |list| > 1 {
          WalkFailsOnlyRaised(list[2..], judge);
          assert forall q :: q in list[2..] ==> q in list;
        }
    }
  }

  /** The loop over the whole list, with everything the walk guarantees. */
  function CheckAll<T>(list: seq<T>, judge: T -> Verdict): (r: Result<Outcome<T>>)
    ensures r == Walk(list, judge)
    ensures r.Success? ==> multiset(r.value.pending) + multiset(r.value.fired) == multiset(list)
    ensures r.Success? ==> forall p :: p in r.value.fired ==> judge(p) == Fire
    ensures r.Success? ==> forall p :: p in list && judge(p) != Fire ==> p in r.value.pending
    ensures r.Failure? ==> exists p :: p in list && judge(p) == Raise(r.fault)
    ensures (forall p :: p in list ==> !judge(p).Raise?) ==> r.Success?
  {
    ScanIsWalk(list, 0, judge);
    assert list[..0] == [] && list[0..] == list;
    PrependNothing(Walk(list, judge));
    WalkPartitions(list, judge);
    WalkFiresOnlyFired(list, judge);
    WalkFailsOnlyRaised(list, judge);
    Scan(list, 0, judge)
  }
}
